=== FILE: README.md ===
# Loki SignalServer core, modelled in Dafny

Loki SignalServer is a WebSocket message server. Clients send **signals**. A
signal carries a route `extension/action`, a sender, a recipient and an
opaque payload. The **router** hands each signal to the loaded **extension**
whose name matches. The extension runs the handler registered for the action.
Around this path sit:

- an **evented queue handler**: named FIFO queues, keyed `exchange/queue`, drained one pending key at a time by a processing loop;
- two **first-write-wins parameter bags**;
- a **TTL cache** and its registry.

The model is a set of pure functions and short methods over immutable
datatypes. There is one module per source component:

| module | file | models |
|---|---|---|
| `Wrappers`, `Runtime` | wrappers.dfy | null as `Option`, a thrown exception as `Result.Failure`, the exception kinds, `byte`, `Int32`, `string.IsNullOrEmpty` |
| `Text` | text.dfy | `ToLowerInvariant` on ASCII, `Split(char)` with its inverse `Join`, decimal rendering with its inverse parser |
| `RouteSplit` | route_split.dfy | the route-splitting rule shared by the three `Signal` revisions |
| `Signal`, `LegacySignal`, `ModuleSignal` | signal.dfy, legacy_signal.dfy, module_signal.dfy | the three revisions of `Signal`: the `Route` setter and `IsValid` |
| `SignalExtensions` | signal_extensions.dfy | `Format` and the null guard of `ResolvePayload` |
| `Extensions` | extension.dfy | `RegisterAction` and `ExecuteAction`, with its retry loop as written and as corrected |
| `SignalRouter` | router.dfy | local-mode `Route` |
| `InMemoryEventedQueue` | evented_queue.dfy | the FIFO and its `Dequeued` event |
| `EventedQueueHandler` | queue_handler.dfy | the registry, `Enqueue`, and one iteration of `Process`, with the invariant every operation keeps |
| `KeyedStore`, `ParameterList`, `EventedQueueParameters` | keyed_store.dfy, parameter_list.dfy, queue_parameters.dfy | the TryAdd-based setters and the bags built on them |
| `InMemoryCache`, `CacheHandler` | in_memory_cache.dfy, cache_handler.dfy | TTL expiry against an explicit clock, `Search`, and the cache registry |

Inputs from outside the model are parameters:

- the clock is `now`, in .NET ticks of 100 ns;
- `default(T)` is `defaultValue`;
- the JSON decoder is `decode`, which may throw;
- an event handler delegate is a `Listener`;
- the configured queue service is passed to `Start`.

### Behaviour worth knowing

Each point is a property of the code as written:

- **Route case.** The route setters lower-case only the stored route. The extension and action keep the case of the assigned value. See `Signal.RouteCaseExample`.
- **Name matching.** Action names and extension names are compared case-sensitively: ordinal `==` and a default-comparer dictionary. See `Extensions.ActionNamesAreCaseSensitive` and `SignalRouter.RouteIsCaseSensitive`.
- **The router does not look at `IsValid`.** `SignalRouter.Route` dispatches a signal whatever its validity, and a null signal throws. See `SignalRouter.RouteSkipsValidation`.
- **The retry loop never advances.** The counter in `ExecuteAction`'s do-while is never incremented, so its `i < 3` bound has no effect. See Findings.
- **Queue keys can collide.** The key `exchange/queue` is not injective: `("a/b","c")` and `("a","b/c")` share a queue. See `EventedQueueHandler.KeysCollide`.
- **A zero cache lifetime depends on the clock.** With a zero lifetime, a read in the same tick as the write still hits. The unit test that expects a miss relies on the clock having advanced. See `InMemoryCache.ZeroLifetimeDependsOnClock`.

## Model

| member | source | states |
|---|---|---|
| Text.ToLowerInvariant | Loki.SignalServer.Common/Router/Signal.cs:80 | the lower-cased route has the same length, each character lower-cased in place, and no upper-case letter left |
| Text.Split | Loki.SignalServer.Common/Router/Signal.cs:85 | splitting on '/' gives one more piece than there are separators, and no piece contains one |
| Text.ToLowerIdempotent | Loki.SignalServer.Common/Router/Signal.cs:80 | lower-casing a route twice gives the same text as lower-casing it once |
| Text.JoinSplit | Loki.SignalServer.Common/Router/Signal.cs:85 | splitting a route on '/' and joining the pieces with '/' gives back the route |
| Text.SplitJoin | Loki.SignalServer.Common/Router/Signal.cs:85 | splitting a join of separator-free pieces gives back the pieces |
| Text.DecimalRoundTrip | Loki.SignalServer.Common/Router/SignalExtensions.cs:36 | the decimal text of a length parses back to that length |
| RouteSplit.SplitRoute | Loki.SignalServer.Common/Router/Signal.cs:82-91 | no '/' leaves both routing fields alone; otherwise the first field becomes the text before the first '/', and the second becomes the text after it only if there is exactly one '/' (else it keeps its old value) |
| RouteSplit.SplitShape | Loki.SignalServer.Common/Router/Signal.cs:85-90 | piece 0 of the split is the text before the first '/'; there are exactly two pieces iff there is exactly one '/', and piece 1 is then the rest |
| RouteSplit.OneSeparatorRoundTrip | Loki.SignalServer.Common/Router/Signal.cs:85-90 | with exactly one '/', `extension + "/" + action` rebuilds the assigned route |
| Signal.SetRoute | Loki.SignalServer.Common/Router/Signal.cs:75-92 | a null route throws NullReferenceException; otherwise the stored route is the lower-cased value, the routing fields follow the split rule on the value as given, and sender, sender id, recipient and payload are untouched |
| Signal.IsValid | Loki.SignalServer.Common/Router/Signal.cs:108 | valid iff sender, extension and action are all present and non-empty; route, recipient and payload do not matter |
| Signal.ValidityAfterRoute | Loki.SignalServer.Common/Router/Signal.cs:78-108 | given a sender, validity after `Route = v` is: unchanged when v has no '/'; otherwise a non-empty first segment and, with one '/', a non-empty second segment, or with several, a non-empty previous action |
| Signal.FreshSignalValidity | Loki.SignalServer.Common/Router/Signal.cs:78-108 | a new signal with a sender becomes valid through its route iff the route has exactly one '/' with text on both sides |
| Signal.RouteCaseExample | Loki.SignalServer.Common/Router/Signal.cs:80-90 | "Chat/Go" is stored as route "chat/go" but yields extension "Chat" and action "Go" |
| LegacySignal.SetRoute | Loki.SignalServer/Loki.SignalServer.Common/Router/Signal.cs:17-34 | same setter without the sender id: null throws, the route is lower-cased, the fields follow the split rule, and the rest is untouched |
| LegacySignal.IsValid | Loki.SignalServer/Loki.SignalServer.Common/Router/Signal.cs:37 | valid iff sender, extension and action are all present and non-empty |
| LegacySignal.ValidityAfterRoute | Loki.SignalServer/Loki.SignalServer.Common/Router/Signal.cs:17-37 | the validity-after-route characterisation, for this revision |
| LegacySignal.SenderIndependentOfRoute | Loki.SignalServer/Loki.SignalServer.Common/Router/Signal.cs:14-34 | assigning the route and assigning the sender commute |
| ModuleSignal.SetRoute | Loki.SignalServer/Loki.SignalServer/Router/Signal.cs:17-34 | never throws; the route is stored verbatim, null included; a null route changes neither Module nor Action; a non-null one follows the split rule |
| ModuleSignal.OneSeparatorDeterminesFields | Loki.SignalServer/Loki.SignalServer/Router/Signal.cs:27-32 | with exactly one '/', Module and Action depend on the route alone, not on the signal's earlier fields |
| ModuleSignal.ManySeparatorsKeepAction | Loki.SignalServer/Loki.SignalServer/Router/Signal.cs:27-32 | with two or more '/', Module becomes the first segment and the earlier Action survives |
| SignalExtensions.Format | Loki.SignalServer.Common/Router/SignalExtensions.cs:29-39 | the text starts with the CR LF terminated Type line and ends with the CR LF terminated Payload Length line |
| SignalExtensions.AppendLinesSnoc | Loki.SignalServer.Common/Router/SignalExtensions.cs:31-38 | appending one more line after the others puts it, CR LF terminated, at the end of the text |
| SignalExtensions.SplitAppendedLines | Loki.SignalServer.Common/Router/SignalExtensions.cs:31-38 | CR LF terminated lines, split at LF, give back each line with its CR, followed by one empty remainder |
| SignalExtensions.FormatLines | Loki.SignalServer.Common/Router/SignalExtensions.cs:29-39 | when no field contains a line feed, the rendering is exactly six LF-separated pieces: Type, Route, Sender, Recipient (null shown as "null") and Payload Length lines, each CR-terminated, then the empty remainder |
| SignalExtensions.PayloadLengthReadsBack | Loki.SignalServer.Common/Router/SignalExtensions.cs:36 | the Payload Length text is empty iff there is no payload, and otherwise parses back to the payload's length |
| SignalExtensions.ResolvePayload | Loki.SignalServer.Common/Router/SignalExtensions.cs:15-21 | a null signal yields the default value; a signal with a null payload throws ArgumentNullException; any other signal gets exactly the decoder's answer, exception included; so it fails iff the signal is present and its payload is null or does not decode |
| SignalExtensions.TotalDecoderFailsOnlyOnNullPayload | Loki.SignalServer.Common/Router/SignalExtensions.cs:15-21 | with a decoder that never throws, the only failure is ArgumentNullException for a present signal with a null payload |
| SignalExtensions.NullSignalIgnoresDecoder | Loki.SignalServer.Common/Router/SignalExtensions.cs:17-18 | for a null signal the result does not depend on the decoder |
| Extensions.NewExtension | Loki.SignalServer/Loki.SignalServer.Extensions/Extension.cs:58-60 | a new extension carries the given name and resolves no action |
| Extensions.RegisterAction | Loki.SignalServer/Loki.SignalServer.Extensions/Extension.cs:86-91 | a null action name throws ArgumentNullException; otherwise the name is added (or kept), looks up to the new handler, and every other name looks up as before |
| Extensions.LastRegistrationWins | Loki.SignalServer/Loki.SignalServer.Extensions/Extension.cs:86-115 | after two registrations under one name, executing it runs the second handler |
| Extensions.ActionNamesAreCaseSensitive | Loki.SignalServer/Loki.SignalServer.Extensions/Extension.cs:35-88 | an action registered as "Send" does not resolve as "send" |
| Extensions.ExecuteAction | Loki.SignalServer/Loki.SignalServer.Extensions/Extension.cs:99-116 | a null action throws ArgumentNullException, and only then; it returns iff the action resolves to a handler, with that handler's answer for the signal; it runs forever iff the action is named but unresolvable |
| Extensions.ExecuteActionInvokesRegisteredHandler | Loki.SignalServer/Loki.SignalServer.Extensions/Extension.cs:99-116 | a resolvable action returns exactly its handler's answer for the signal |
| Extensions.AsWrittenNeverExits | Loki.SignalServer/Loki.SignalServer.Extensions/Extension.cs:103-107 | as written, the lookup loop for an unresolvable action is still running after any number of passes |
| Extensions.ExecuteActionMatchesLoop | Loki.SignalServer/Loki.SignalServer.Extensions/Extension.cs:99-116 | `ExecuteAction` diverges iff the written loop never exits; for a resolvable action the loop exits after one pass holding the handler |
| Extensions.CounterAdvancedExitsWithinThree | Loki.SignalServer/Loki.SignalServer.Extensions/Extension.cs:103-107 | with the counter advanced, the loop exits within three passes, after one pass if the action resolves and after three if not |
| Extensions.ExecuteActionBounded | Loki.SignalServer/Loki.SignalServer.Extensions/Extension.cs:99-116 | the corrected version never diverges: it answers the handler's response, or null after the bounded re-checks |
| Extensions.BoundedAgreesWhereWrittenTerminates | Loki.SignalServer/Loki.SignalServer.Extensions/Extension.cs:99-116 | the two versions agree wherever the written one returns; where it hangs, the corrected one answers null |
| SignalRouter.FirstMatch | Loki.SignalServer/Loki.SignalServer/Router/SignalRouter.cs:47 | none iff no extension's name equals the signal's extension; otherwise the lowest matching index |
| SignalRouter.Route | Loki.SignalServer/Loki.SignalServer/Router/SignalRouter.cs:45-55 | a null signal throws; no match means unrouted; otherwise the first match's action runs, which hangs iff the loop is as written and the action is named but unresolvable; a null action throws ArgumentNullException |
| SignalRouter.CorrectedRouteNeverHangs | Loki.SignalServer/Loki.SignalServer/Router/SignalRouter.cs:47-54 | with the corrected loop, a signal with a named action and a matching extension is always dispatched |
| SignalRouter.RouteSkipsValidation | Loki.SignalServer/Loki.SignalServer/Router/SignalRouter.cs:45-55 | a signal failing `IsValid` (no sender) is still dispatched |
| SignalRouter.RouteIsCaseSensitive | Loki.SignalServer/Loki.SignalServer/Router/SignalRouter.cs:47-52 | a signal for "Chat" is not routed to an extension named "chat" |
| InMemoryEventedQueue.Count | Loki.SignalServer/Loki.SignalServer.Common/Queues/InMemory/InMemoryEventedQueue.cs:26 | the count is zero exactly when no item is waiting |
| InMemoryEventedQueue.CanDequeue | Loki.SignalServer/Loki.SignalServer.Common/Queues/InMemory/InMemoryEventedQueue.cs:34 | the in-memory queue can always be dequeued |
| InMemoryEventedQueue.Enqueue | Loki.SignalServer/Loki.SignalServer.Common/Queues/InMemory/InMemoryEventedQueue.cs:61-64 | the count grows by one, the earlier items keep their order, the item is last, and no event is raised |
| InMemoryEventedQueue.Dequeue | Loki.SignalServer/Loki.SignalServer.Common/Queues/InMemory/InMemoryEventedQueue.cs:70-77 | a non-empty queue yields its front item and keeps the rest; an empty one yields the default value; either way the event fires once with the returned value to the current listeners |
| InMemoryEventedQueue.Subscribe | Loki.SignalServer/Loki.SignalServer.Common/Queues/InMemory/InMemoryEventedQueue.cs:51 | `+=` appends the listener at the end of the invocation list and leaves the items alone |
| InMemoryEventedQueue.Unsubscribe | Loki.SignalServer/Loki.SignalServer.Common/Queues/InMemory/InMemoryEventedQueue.cs:51 | `-=` removes one subscription of a subscribed listener, does nothing for an absent one, and leaves the items alone |
| InMemoryEventedQueue.RemoveLast | Loki.SignalServer/Loki.SignalServer.Common/Queues/InMemory/InMemoryEventedQueue.cs:51 | removing a subscribed listener drops exactly one occurrence of it; removing an absent one changes nothing |
| InMemoryEventedQueue.RemoveLastCutsLastOccurrence | Loki.SignalServer/Loki.SignalServer.Common/Queues/InMemory/InMemoryEventedQueue.cs:51 | the occurrence removed is the last one: the result is the list with just that position cut out |
| InMemoryEventedQueue.SubscribeUnsubscribe | Loki.SignalServer/Loki.SignalServer.Common/Queues/InMemory/InMemoryEventedQueue.cs:51 | subscribing then unsubscribing a listener restores the invocation list |
| InMemoryEventedQueue.EnqueueAllAppends | Loki.SignalServer/Loki.SignalServer.Common/Queues/InMemory/InMemoryEventedQueue.cs:61-64 | enqueueing a sequence appends it at the back |
| InMemoryEventedQueue.DequeueNReturnsItems | Loki.SignalServer/Loki.SignalServer.Common/Queues/InMemory/InMemoryEventedQueue.cs:70-77 | dequeueing as often as there are items returns them front first |
| InMemoryEventedQueue.FifoOrder | Loki.SignalServer/Loki.SignalServer.Common/Queues/InMemory/InMemoryEventedQueue.cs:61-77 | items come out in the order they went in |
| EventedQueueHandler.GetKey | Loki.SignalServer/Loki.SignalServer.Common/Queues/EventedQueueHandler.cs:226-229 | every key contains the '/' separator |
| EventedQueueHandler.KeysCollide | Loki.SignalServer/Loki.SignalServer.Common/Queues/EventedQueueHandler.cs:226-229 | two different (exchange, queue) pairs can produce the same key |
| EventedQueueHandler.KeyIdentifiesPairWithoutSeparator | Loki.SignalServer/Loki.SignalServer.Common/Queues/EventedQueueHandler.cs:226-229 | when no exchange id contains '/', equal keys mean equal pairs |
| EventedQueueHandler.CanDequeue | Loki.SignalServer/Loki.SignalServer.Common/Queues/RabbitMq/RabbitEventedQueue.cs:48 | a registered queue can be dequeued iff it is in-memory, where it agrees with the in-memory queue's own flag |
| EventedQueueHandler.Start | Loki.SignalServer/Loki.SignalServer.Common/Queues/EventedQueueHandler.cs:99-109 | the handler is running with the configured service; registry and pending keys are untouched |
| EventedQueueHandler.Stop | Loki.SignalServer/Loki.SignalServer.Common/Queues/EventedQueueHandler.cs:115-118 | the handler is not running; service, registry and pending keys are untouched |
| EventedQueueHandler.StartStopGateProcessing | Loki.SignalServer/Loki.SignalServer.Common/Queues/EventedQueueHandler.cs:99-118 | after Stop the next iteration ends the loop and changes nothing; Start records the configured service and lets pending work proceed |
| EventedQueueHandler.CreateQueue | Loki.SignalServer/Loki.SignalServer.Common/Queues/EventedQueueHandler.cs:127-147 | an existing key changes nothing; otherwise a queue of the configured service is added under the key and nothing else changes; an unrecognised service throws InvalidOperationException, and only then |
| EventedQueueHandler.CreateQueueIdempotent | Loki.SignalServer/Loki.SignalServer.Common/Queues/EventedQueueHandler.cs:127-132 | creating a queue twice is creating it once |
| EventedQueueHandler.RemoveQueue | Loki.SignalServer/Loki.SignalServer.Common/Queues/EventedQueueHandler.cs:155-163 | an unknown key throws ArgumentException, and only then; otherwise just that key leaves the registry, and pending keys are kept |
| EventedQueueHandler.AddEvent | Loki.SignalServer/Loki.SignalServer.Common/Queues/EventedQueueHandler.cs:172-180 | an unknown key throws ArgumentException, and only then; otherwise the listener joins that queue's invocation list, and no other queue, the pending keys, the service and the running flag change |
| EventedQueueHandler.RemoveEvent | Loki.SignalServer/Loki.SignalServer.Common/Queues/EventedQueueHandler.cs:189-197 | an unknown key throws ArgumentException, and only then; otherwise the listener leaves that queue's invocation list, and no other queue, the pending keys, the service and the running flag change |
| EventedQueueHandler.Enqueue | Loki.SignalServer/Loki.SignalServer.Common/Queues/EventedQueueHandler.cs:205-214 | throws InvalidOperationException iff the queue is missing and the service unrecognised; otherwise the item is pushed onto the existing or newly created direct queue, the key is appended to the pending FIFO, and no other queue changes |
| EventedQueueHandler.ProcessStep | Loki.SignalServer/Loki.SignalServer.Common/Queues/EventedQueueHandler.cs:238-258 | stopped: nothing happens; nothing pending: sleep; otherwise the front key is popped and an empty key is skipped, and only then, leaving the registry as it was; a non-empty key throws KeyNotFoundException iff it has no queue, before any write; a present key is drained iff its queue is in-memory (dequeued once, firing its event) and passed over iff it is a broker queue; no other queue changes |
| EventedQueueHandler.NewHandlerSatisfiesInvariant | Loki.SignalServer/Loki.SignalServer.Common/Queues/EventedQueueHandler.cs:30-35 | an empty handler meets the invariant: keys well formed, no item stranded |
| EventedQueueHandler.ApplyPreservesInvariant | Loki.SignalServer/Loki.SignalServer.Common/Queues/EventedQueueHandler.cs:99-258 | every public operation and every processing step preserves the invariant |
| EventedQueueHandler.EnqueuePreserves | Loki.SignalServer/Loki.SignalServer.Common/Queues/EventedQueueHandler.cs:205-214 | Enqueue keeps every in-memory queue's item count within its number of pending keys |
| EventedQueueHandler.ProcessStepPreserves | Loki.SignalServer/Loki.SignalServer.Common/Queues/EventedQueueHandler.cs:242-257 | a processing step keeps the same bound, since a popped key of an in-memory queue always dequeues from it |
| EventedQueueHandler.NoEmptyPendingKey | Loki.SignalServer/Loki.SignalServer.Common/Queues/EventedQueueHandler.cs:252-253 | under the invariant the empty-key branch is never taken |
| EventedQueueHandler.EnqueueThenProcess | Loki.SignalServer/Loki.SignalServer.Common/Queues/EventedQueueHandler.cs:205-256 | on a running, idle handler (nothing pending) using the in-memory service, an item enqueued onto a queue that does not yet exist is handed to that queue's listeners by the next step, leaving the queue empty and nothing pending |
| EventedQueueHandler.RemovedQueueCrashesProcessing | Loki.SignalServer/Loki.SignalServer.Common/Queues/EventedQueueHandler.cs:155-256 | on a running handler with nothing else pending and the in-memory service, enqueueing an item and then removing its queue makes the next step throw KeyNotFoundException; the general rule (a pending key at the front whose queue is gone throws before any write) is `EventedQueueHandler.ProcessStep`'s `Crashed` clause |
| KeyedStore.TryAdd | Loki.SignalServer/Loki.SignalServer.Common/Utility/ParameterList.cs:37 | the key is added if absent; an existing value is never replaced |
| KeyedStore.SetIndexer | Loki.SignalServer/Loki.SignalServer.Common/Utility/ParameterList.cs:32-40 | three TryAdd passes have the effect of one: the key ends present, holding its earlier value if it had one, else the new one |
| KeyedStore.TryAddIdempotent | Loki.SignalServer/Loki.SignalServer.Common/Utility/ParameterList.cs:36-39 | a second write under a key is ignored |
| KeyedStore.ApplyWritesFirstWins | Loki.SignalServer/Loki.SignalServer.Common/Utility/ParameterList.cs:32-40 | after a sequence of writes a key is present iff it was present or written; it holds its earlier value, else the value of its first write |
| KeyedStore.ApplyWritesKeepsKeys | Loki.SignalServer/Loki.SignalServer.Common/Utility/ParameterList.cs:32-40 | writes never remove a key |
| ParameterList.Get | Loki.SignalServer/Loki.SignalServer.Common/Utility/ParameterList.cs:31 | null iff the name is absent, else its stored value |
| ParameterList.Set | Loki.SignalServer/Loki.SignalServer.Common/Utility/ParameterList.cs:32-40 | after setting, the name reads as its earlier value if it had one, else the new value; every other name reads as before |
| ParameterList.Add | Loki.SignalServer/Loki.SignalServer.Common/Utility/ParameterList.cs:84-87 | the same first-write-wins effect as the setter |
| ParameterList.Enumerate | Loki.SignalServer/Loki.SignalServer.Common/Utility/ParameterList.cs:103-107 | every stored pair is listed exactly once |
| ParameterList.AddRange | Loki.SignalServer/Loki.SignalServer.Common/Utility/ParameterList.cs:93-97 | the result holds the union of names; names already present keep their values |
| ParameterList.FromDictionary | Loki.SignalServer/Loki.SignalServer.Common/Utility/ParameterList.cs:59-63 | the list holds exactly the dictionary's pairs |
| ParameterList.Copy | Loki.SignalServer/Loki.SignalServer.Common/Utility/ParameterList.cs:69-73 | the copy equals the original |
| EventedQueueParameters.Get | Loki.SignalServer/Loki.SignalServer.Common/Queues/EventedQueueParameters.cs:11-18 | an absent name throws IndexOutOfRangeException, and only then; otherwise its stored value |
| EventedQueueParameters.Set | Loki.SignalServer/Loki.SignalServer.Common/Queues/EventedQueueParameters.cs:19-27 | after setting, the name reads as its earlier value if it had one, else the new value; every name already present reads as before |
| EventedQueueParameters.ReadAfterWrites | Loki.SignalServer/Loki.SignalServer.Common/Queues/EventedQueueParameters.cs:11-27 | after a sequence of writes, a name reads as its first written value, and a name never written throws |
| EventedQueueParameters.SecondWriteIgnored | Loki.SignalServer/Loki.SignalServer.Common/Queues/EventedQueueParameters.cs:19-27 | of two writes to a name, the first is the one read back |
| InMemoryCache.Expired | Loki.SignalServer/Loki.SignalServer.Common/Cache/InMemory/InMemoryCache.cs:51-54 | an entry is stale iff the lifetime is enforced (greater than -1) and the ticks since its write exceed the lifetime in seconds times 10,000,000; a stale entry was written strictly earlier |
| InMemoryCache.Get | Loki.SignalServer/Loki.SignalServer.Common/Cache/InMemory/InMemoryCache.cs:46-62 | a value is returned iff the key is present and not stale, and it is the stored payload; the key stays iff a value was returned; no other entry changes |
| InMemoryCache.Set | Loki.SignalServer/Loki.SignalServer.Common/Cache/InMemory/InMemoryCache.cs:96-99 | the key holds the new payload stamped with the write time; no other entry changes |
| InMemoryCache.SetThenGet | Loki.SignalServer/Loki.SignalServer.Common/Cache/InMemory/InMemoryCache.cs:46-99 | a value reads back, without eviction, while its lifetime has not run out or when the lifetime is not enforced |
| InMemoryCache.SetThenGetAfterExpiry | Loki.SignalServer/Loki.SignalServer.Common/Cache/InMemory/InMemoryCache.cs:51-58 | once the lifetime has run out, the value reads as null and is evicted |
| InMemoryCache.LastWriteWins | Loki.SignalServer/Loki.SignalServer.Common/Cache/InMemory/InMemoryCache.cs:96-99 | a later write under a key replaces the earlier one entirely |
| InMemoryCache.NullStaysNull | Loki.SignalServer/Loki.SignalServer.Common/Cache/InMemory/InMemoryCache.cs:51-58 | a key that reads as null stays null at every later instant |
| InMemoryCache.GetIsStable | Loki.SignalServer/Loki.SignalServer.Common/Cache/InMemory/InMemoryCache.cs:46-62 | reading again at the same instant gives the same answer and changes nothing more |
| InMemoryCache.UnenforcedNeverEvicts | Loki.SignalServer/Loki.SignalServer.Common/Cache/InMemory/InMemoryCache.cs:51 | with a lifetime of -1 or less a read never evicts and returns what is stored |
| InMemoryCache.ZeroLifetimeDependsOnClock | Loki.SignalServer/Loki.SignalServer.Common/Cache/InMemory/InMemoryCache.cs:51-58 | with lifetime 0 a read in the writing tick hits and a read one tick later misses |
| InMemoryCache.Search | Loki.SignalServer/Loki.SignalServer.Common/Cache/InMemory/InMemoryCache.cs:70-88 | null iff no entry, stale or live, matches; otherwise the payloads of the live matches, one per matching key, while stale matches are evicted and all else is kept |
| InMemoryCache.NoLiveValues | Loki.SignalServer/Loki.SignalServer.Common/Cache/InMemory/InMemoryCache.cs:77-87 | the search answer is empty exactly when every match is stale, so it can be an empty array rather than null |
| InMemoryCache.CacheFixtures | Loki.SignalServer/Loki.SignalServer.UnitTests/Cache/InMemoryCacheTests.cs:10-27 | a value written to a ten-minute cache reads back, and an absent key reads as null |
| CacheHandler.GetCache | Loki.SignalServer/Loki.SignalServer.Common/Cache/CacheHandler.cs:20-26 | null iff no cache is registered under the name, else that cache |
| CacheHandler.Build | Loki.SignalServer/Loki.SignalServer.Common/Cache/CacheHandler.cs:30-41 | Redis gives a Redis cache with the given connection and lifetime; every other service value gives an empty in-memory cache with that lifetime |
| CacheHandler.AddCache | Loki.SignalServer/Loki.SignalServer.Common/Cache/CacheHandler.cs:28-44 | the name then looks up to the newly built cache, and every other name looks up as before |
| CacheHandler.AddCacheReplaces | Loki.SignalServer/Loki.SignalServer.Common/Cache/CacheHandler.cs:43 | registering twice under a name keeps only the second cache |
| CacheHandler.UnrecognisedFallsBackToInMemory | Loki.SignalServer/Loki.SignalServer.Common/Cache/CacheHandler.cs:37-40 | an unrecognised service value registers the same cache as InMemory |
| CacheHandler.GeneratorCachesNeverEvict | Loki.SignalServer/Loki.SignalServer.Common/Queues/RabbitMq/RabbitEventedExchangeGenerator.cs:53 | the broker exchange generator's in-memory lookup cache, registered with lifetime -1, never evicts |

## Left out

- Broker and server backends. RabbitMQ queues and Redis caches are opaque: their I/O and connection failures live outside the process. A broker queue records what was pushed and cannot be dequeued. A Redis cache is known only by its connection string and lifetime.
- Concurrency. Each concurrent collection is a value, and each operation is atomic. The processing thread is modelled one iteration at a time (`ProcessStep`), and the 20 ms sleep is the `Slept` event. Races between threads are not modelled.
- Logging. The Debug and Warn messages are dropped.
- Dependency resolution. `Start` resolving its helpers and spawning the thread, and the `Extension` constructor resolving logger and configuration, are not modelled. The configured queue service is a parameter of `Start`.
- `RegisterConnection` and `UnregisterConnection` are abstract in `Extension` and have no behaviour to model.
- Payload decoding. UTF-8 decoding and JSON deserialisation in `ResolvePayload` are the `decode` parameter, which answers a value or an exception.
- The `Payload as T` casts of the cache. The model has one payload type per cache, so a failing cast returning null is not modelled.
- Null dictionary keys, and the ArgumentNullException they raise, are not modelled for the parameter bags, the cache and the registries. Keys are non-null strings, except the action name of `RegisterAction` and `ExecuteAction`, where null is modelled.
- Unicode lower-casing. `ToLowerInvariant` maps only 'A'..'Z'.
- `Format` on a null signal is not modelled: the signal is a non-null value. A null `signalType` is modelled.
- Floating point. `TimeSpan.TotalSeconds > expiry` is compared exactly in integer ticks, which drops double rounding near the boundary.
- Callbacks that throw. Extension handlers (`Extensions.Handler`) and `Dequeued` listeners are total functions here; listeners are recorded in the `Notification` and never run. The lines below name what this leaves out.
- SignalRouter.Route: a handler that throws would make `ExecuteAction`, and so the routing, throw that exception. The `Failed` outcome covers only the null signal and the null action.
- SignalRouter.Route: the extension list is a `seq<Extension>` that always exists. In the source `ExtensionLoader.Extensions` is null until `LoadExtensions` assigns it (ExtensionLoader.cs:26, :74), and routing before that makes `FirstOrDefault` throw ArgumentNullException; that state is not modelled.
- EventedQueueHandler.ProcessStep: a `Dequeued` listener that throws would make the step throw, and the exception propagates out of `Process`. `Crashed` covers only the key whose queue was removed.
- ParameterList.Get: the source reads a name stored with a null value as null, just like an absent name. The model's value type is generic, so `None` means absent only.
- InMemoryCache.Get: a stored null payload reads as null in the source, without eviction. Payloads here are values of the cache's payload type and are never null.
- InMemoryCache.Search: states which keys are visited and what is returned for each, but not the order, which the dictionary leaves unspecified. The visiting order is an output of the model.
- InMemoryCache.Search: the source reads the clock once per matching key, through `Get`. The model reads one `now` for the whole scan, so a key that expires between two reads of one search is not modelled.
- InMemoryCache.Search: the source skips matches whose payload is null. Payloads here are never null, so this branch is not modelled.
- InMemoryCache.Search: the filter predicate is a total `V -> bool` here. In the source it is a caller-supplied callback (InMemoryCache.cs:72), and one that throws would propagate out of the `Where(...).ToArray()` scan; that exception is not modelled.

## Findings

| source | as written | input that shows it | evidently intended | confidence | as-written member | corrected member |
|---|---|---|---|---|---|---|
| Loki.SignalServer/Loki.SignalServer.Extensions/Extension.cs:103-107 | the do-while re-checks `func == null && i < 3` but never increments `i`, so an action with no handler loops forever and the warn-and-return-null branch is unreachable | `ExecuteAction("missing", signal)` on an extension with no action "missing" (or with a null handler under it) | at most three lookups, then a warning and a null response | high; not executed | Extensions.AsWrittenNeverExits | Extensions.ExecuteActionBounded |

=== FILE: cache_handler.dfy ===
/** CacheHandler: named caches, each in memory or on a Redis server. */
module CacheHandler {
  import opened Wrappers
  import opened Runtime
  import C = InMemoryCache

  /** The `CacheService` enum; a value outside its members is `Other`. */
  datatype CacheService = Redis | InMemory | Other(code: int)

  /** A registered cache. A Redis cache is known only by how it was built:
      its behaviour lives on the server. */
  datatype CacheRef<V> =
    | Local(cache: C.Cache<V>)
    | Remote(connectionString: Option<string>, expiryInSeconds: Int32)

  datatype CacheHandler<V> = CacheHandler(caches: map<string, CacheRef<V>>)

  function NewHandler<V>(): CacheHandler<V>
  {
    CacheHandler(map[])
  }

  /** `GetCache(key)`: the cache registered under the name, or null. */
  function GetCache<V>(h: CacheHandler<V>, key: string): (r: Option<CacheRef<V>>)
    ensures r.Some? <==> key in h.caches
    ensures r.Some? ==> r.value == h.caches[key]
  {
    if key in h.caches then Some(h.caches[key]) else None
  }

  /** The cache AddCache builds: Redis for `Redis`, and an empty in-memory
      cache for `InMemory` and for every unrecognised value. */
  function Build<V>(cacheType: CacheService, expiryInSeconds: Int32, connectionString: Option<string>): (r: CacheRef<V>)
    ensures r.Remote? <==> cacheType == Redis
    ensures r.Local? ==> r.cache == C.NewCache(expiryInSeconds)
    ensures r.Remote? ==> r.connectionString == connectionString && r.expiryInSeconds == expiryInSeconds
  {
    match cacheType
    case Redis => Remote(connectionString, expiryInSeconds)
    case _ => Local(C.NewCache(expiryInSeconds))
  }

  /** `AddCache(key, cacheType, expiry, connectionString)`: register a new
      cache under the name, replacing any cache already there. */
  function AddCache<V>(h: CacheHandler<V>, key: string, cacheType: CacheService, expiryInSeconds: Int32, connectionString: Option<string>): (r: CacheHandler<V>)
    ensures GetCache(r, key) == Some(Build(cacheType, expiryInSeconds, connectionString))
    ensures forall k :: k != key ==> GetCache(r, k) == GetCache(h, k)
  {
    CacheHandler(h.caches[key := Build(cacheType, expiryInSeconds, connectionString)])
  }

  /** Registering twice under a name keeps only the second cache, and the
      entries of the first are gone with it. */
  lemma AddCacheReplaces<V>(h: CacheHandler<V>, key: string, t1: CacheService, t2: CacheService, e1: Int32, e2: Int32, s1: Option<string>, s2: Option<string>)
    ensures AddCache(AddCache(h, key, t1, e1, s1), key, t2, e2, s2) == AddCache(h, key, t2, e2, s2)
  {
  }

  /** The broker generators register their lookup caches as in-memory with
      lifetime -1: those caches never evict. */
  lemma GeneratorCachesNeverEvict<V>(h: CacheHandler<V>, name: string, key: string, now: int)
    ensures var r := GetCache(AddCache(h, name, InMemory, -1, None), name);
      r.Some? && r.value.Local? && r.value.cache.expiryInSeconds == -1
      && C.Get(r.value.cache, key, now).cache == r.value.cache
  {
    C.UnenforcedNeverEvicts(C.NewCache<V>(-1), key, now);
  }

  /** An unrecognised service value falls back to an in-memory cache. */
  lemma UnrecognisedFallsBackToInMemory<V>(h: CacheHandler<V>, key: string, code: int, e: Int32, s: Option<string>)
    ensures AddCache(h, key, Other(code), e, s) == AddCache(h, key, InMemory, e, s)
  {
  }
}

=== FILE: evented_queue.dfy ===
/** InMemoryEventedQueue<T>: a FIFO whose every Dequeue raises the
    `Dequeued` event with the value it returns. */
module InMemoryEventedQueue {

  /** An `EventHandler<T>` delegate, known by identity. */
  datatype Listener = Listener(id: nat)

  /** One raising of `Dequeued`: the value passed, and the subscribed
      listeners in invocation order. */
  datatype Notification<T> = Notification(value: T, listeners: seq<Listener>)

  /** The backing queue (front first) and the event's invocation list. */
  datatype EventedQueue<T> = EventedQueue(items: seq<T>, listeners: seq<Listener>)

  function Empty<T>(): EventedQueue<T>
  {
    EventedQueue([], [])
  }

  /** `Count`: the number of items waiting; zero exactly for an empty queue. */
  function Count<T>(q: EventedQueue<T>): (n: nat)
    ensures n == 0 <==> q.items == []
  {
    |q.items|
  }

  /** `CanDequeue` of this queue is constantly true. */
  function CanDequeue<T>(q: EventedQueue<T>): (r: bool)
    ensures r
  {
    true
  }

  /** `Enqueue(item)`: append at the back; no event is raised. */
  function Enqueue<T>(q: EventedQueue<T>, item: T): (r: EventedQueue<T>)
    ensures Count(r) == Count(q) + 1
    ensures r.items[..Count(q)] == q.items && r.items[Count(q)] == item
    ensures r.listeners == q.listeners
  {
    q.(items := q.items + [item])
  }

  datatype Dequeued<T> = Dequeued(queue: EventedQueue<T>, value: T, fired: Notification<T>)

  /** `Dequeue()`: TryDequeue, then raise `Dequeued` with the result, then
      return it. An empty queue yields `default(T)`, here `defaultValue`, and
      still raises the event. */
  function Dequeue<T>(q: EventedQueue<T>, defaultValue: T): (r: Dequeued<T>)
    ensures Count(q) > 0 ==> r.value == q.items[0] && r.queue.items == q.items[1..]
    ensures Count(q) == 0 ==> r.value == defaultValue && r.queue.items == []
    ensures r.queue.listeners == q.listeners
    ensures r.fired == Notification(r.value, q.listeners)
  {
    if |q.items| == 0 then Dequeued(q, defaultValue, Notification(defaultValue, q.listeners))
    else Dequeued(q.(items := q.items[1..]), q.items[0], Notification(q.items[0], q.listeners))
  }

  /** `Dequeued += listener`: append to the invocation list. */
  function Subscribe<T>(q: EventedQueue<T>, l: Listener): (r: EventedQueue<T>)
    ensures r.items == q.items
    ensures |r.listeners| == |q.listeners| + 1
    ensures r.listeners[..|q.listeners|] == q.listeners && r.listeners[|q.listeners|] == l
  {
    q.(listeners := q.listeners + [l])
  }

  /** `Dequeued -= listener`: Delegate.Remove drops the last occurrence of the
      listener and leaves the list alone if it is absent. */
  function Unsubscribe<T>(q: EventedQueue<T>, l: Listener): (r: EventedQueue<T>)
    ensures r.items == q.items
    ensures l in q.listeners ==> multiset(r.listeners) == multiset(q.listeners) - multiset{l}
    ensures l !in q.listeners ==> r == q
  {
    q.(listeners := RemoveLast(q.listeners, l))
  }

  /** The list without its last occurrence of `x`. */
  function RemoveLast(s: seq<Listener>, x: Listener): (r: seq<Listener>)
    ensures x in s ==> |r| == |s| - 1 && multiset(r) == multiset(s) - multiset{x}
    ensures x !in s ==> r == s
  {
    if |s| == 0 then s
    else
      assert s == s[..|s| - 1] + [s[|s| - 1]];
      if s[|s| - 1] == x then s[..|s| - 1]
      else RemoveLast(s[..|s| - 1], x) + [s[|s| - 1]]
  }

  /** `i` is the position of the last occurrence of `x` in `s`. */
  predicate LastIndexOf(s: seq<Listener>, x: Listener, i: int)
  {
    0 <= i < |s| && s[i] == x && x !in s[i + 1..]
  }

  /** The position of the last occurrence of `x`. */
  function LastIndex(s: seq<Listener>, x: Listener): (i: nat)
    requires x in s
    ensures LastIndexOf(s, x, i)
  {
    var n := |s| - 1;
    if s[n] == x then
      assert s[n + 1..] == [];
      n
    else
      assert s == s[..n] + [s[n]];
      var i := LastIndex(s[..n], x);
      assert s[i + 1..] == s[..n][i + 1..] + [s[n]];
      i
  }

  /** It is the last occurrence that goes: what remains is the list with
      exactly that one position cut out. */
  lemma {:induction false} RemoveLastCutsLastOccurrence(s: seq<Listener>, x: Listener)
    requires x in s
    ensures RemoveLast(s, x) == s[..LastIndex(s, x)] + s[LastIndex(s, x) + 1..]
    decreases |s|
  {
    var n := |s| - 1;
    if s[n] == x {
      assert s[..n] + s[n + 1..] == s[..n];
    } else {
      var front, last := s[..n], s[n];
      assert s == front + [last];
      RemoveLastKeepsOtherLast(s, x);
      LastIndexInFront(s, x);
      RemoveLastCutsLastOccurrence(front, x);
      CutThenSnoc(front, last, LastIndex(front, x));
    }
  }

  /** A last element other than `x` stays last when `x` is removed. */
  lemma RemoveLastKeepsOtherLast(s: seq<Listener>, x: Listener)
    requires |s| > 0 && s[|s| - 1] != x
    ensures RemoveLast(s, x) == RemoveLast(s[..|s| - 1], x) + [s[|s| - 1]]
  {
  }

  /** A last element other than `x` leaves the last `x` in the front. */
  lemma LastIndexInFront(s: seq<Listener>, x: Listener)
    requires x in s && s[|s| - 1] != x
    ensures x in s[..|s| - 1] && LastIndex(s, x) == LastIndex(s[..|s| - 1], x)
  {
    assert s == s[..|s| - 1] + [s[|s| - 1]];
  }

  /** Cutting position `i` and then appending `y` is appending then cutting. */
  lemma CutThenSnoc(t: seq<Listener>, y: Listener, i: int)
    requires 0 <= i < |t|
    ensures t[..i] + t[i + 1..] + [y] == (t + [y])[..i] + (t + [y])[i + 1..]
  {
    assert (t + [y])[..i] == t[..i];
    assert (t + [y])[i + 1..] == t[i + 1..] + [y];
  }



  /** Subscribing and then unsubscribing the same listener restores the
      invocation list. */
  lemma SubscribeUnsubscribe<T>(q: EventedQueue<T>, l: Listener)
    ensures Unsubscribe(Subscribe(q, l), l) == q
  {
    assert (q.listeners + [l])[..|q.listeners|] == q.listeners;
  }

  // ---------------------------------------------------------------------
  // FIFO order
  // ---------------------------------------------------------------------

  function EnqueueAll<T>(q: EventedQueue<T>, xs: seq<T>): EventedQueue<T>
    decreases |xs|
  {
    if |xs| == 0 then q else EnqueueAll(Enqueue(q, xs[0]), xs[1..])
  }

  /** Dequeue `n` times; the values returned, in order. */
  function DequeueN<T>(q: EventedQueue<T>, n: nat, defaultValue: T): seq<T>
    decreases n
  {
    if n == 0 then [] else
      var d := Dequeue(q, defaultValue);
      [d.value] + DequeueN(d.queue, n - 1, defaultValue)
  }

  /** Enqueueing a sequence appends it at the back. */
  lemma {:induction false} EnqueueAllAppends<T>(q: EventedQueue<T>, xs: seq<T>)
    ensures EnqueueAll(q, xs).items == q.items + xs
    ensures EnqueueAll(q, xs).listeners == q.listeners
    decreases |xs|
  {
    if |xs| > 0 {
      EnqueueAllAppends(Enqueue(q, xs[0]), xs[1..]);
      assert q.items + [xs[0]] + xs[1..] == q.items + xs;
    }
  }

  /** Dequeueing as many times as there are items returns them front first. */
  lemma {:induction false} DequeueNReturnsItems<T>(q: EventedQueue<T>, defaultValue: T)
    ensures DequeueN(q, Count(q), defaultValue) == q.items
    decreases |q.items|
  {
    if |q.items| > 0 {
      var d := Dequeue(q, defaultValue);
      DequeueNReturnsItems(d.queue, defaultValue);
    }
  }

  /** FIFO: items enqueued onto an empty queue come out in the order they
      went in. */
  lemma FifoOrder<T>(xs: seq<T>, defaultValue: T)
    ensures DequeueN(EnqueueAll(Empty(), xs), |xs|, defaultValue) == xs
  {
    EnqueueAllAppends(Empty(), xs);
    DequeueNReturnsItems(EnqueueAll(Empty(), xs), defaultValue);
  }
}

=== FILE: extension.dfy ===
/** The base Extension: a name fixed at construction and a table from action
    name to handler, keyed case-sensitively (a ConcurrentDictionary with the
    default string comparer). */
module Extensions {
  import opened Wrappers
  import opened Runtime
  import LegacySignal

  type Signal = LegacySignal.Signal

  /** `Func<ISignal, ISignal>`: a handler answers with a response or null. */
  type Handler = Signal -> Option<Signal>

  /** The table may hold a null handler under a name: `RegisterAction` does
      not reject one. */
  datatype Extension = Extension(name: Option<string>, actions: map<string, Option<Handler>>)

  /** The constructor: the name is set here and has no setter. */
  function NewExtension(name: Option<string>): (e: Extension)
    ensures e.name == name
    ensures forall a :: !Resolvable(e, a)
  {
    Extension(name, map[])
  }

  /** `_actions.TryGetValue(action, out func)`: null when the name is absent
      or maps to a null handler. */
  function TryGetValue(e: Extension, action: string): Option<Handler>
  {
    if action in e.actions then e.actions[action] else None
  }

  /** An action whose lookup yields a handler. */
  predicate Resolvable(e: Extension, action: string)
  {
    TryGetValue(e, action).Some?
  }

  /** `RegisterAction(action, handler)`: `_actions[action] = handler`, an
      upsert; a null action name makes the dictionary throw. */
  function RegisterAction(e: Extension, action: Option<string>, handler: Option<Handler>): (r: Result<Extension, Exception>)
    ensures action.None? <==> r == Failure(ArgumentNull)
    ensures r.Success? ==>
      && r.value.name == e.name
      && r.value.actions.Keys == e.actions.Keys + {action.value}
      && TryGetValue(r.value, action.value) == handler
      && forall k :: k != action.value ==> TryGetValue(r.value, k) == TryGetValue(e, k)
  {
    match action
    case None => Failure(ArgumentNull)
    case Some(a) => Success(e.(actions := e.actions[a := handler]))
  }

  /** A later registration under a name replaces the earlier one. */
  lemma LastRegistrationWins(e: Extension, a: string, h1: Handler, h2: Handler, s: Signal)
    ensures var e1 := RegisterAction(e, Some(a), Some(h1)).value;
      var e2 := RegisterAction(e1, Some(a), Some(h2)).value;
      ExecuteAction(e2, Some(a), s) == Returned(h2(s))
  {
  }

  /** Names differing only in case are different actions. */
  lemma ActionNamesAreCaseSensitive(h: Handler)
    ensures var e := RegisterAction(NewExtension(Some("chat")), Some("Send"), Some(h)).value;
      Resolvable(e, "Send") && !Resolvable(e, "send")
  {
    var e := RegisterAction(NewExtension(Some("chat")), Some("Send"), Some(h)).value;
    assert "send" != "Send" by { assert "send"[0] != "Send"[0]; }
  }

  // ---------------------------------------------------------------------
  // ExecuteAction
  // ---------------------------------------------------------------------

  /** What a call of `ExecuteAction` does: return a response (possibly
      null), run forever, or throw. */
  datatype Execution = Returned(response: Option<Signal>) | Diverges | Threw(error: Exception)

  /** `ExecuteAction(action, signal)` as written. A null action name throws
      in the lookup. A resolvable action returns its handler's answer. For
      any other action the retry loop never ends, because its counter is
      never advanced (see `RunLookup`), so the warn-and-return-null branch is
      never reached. */
  function ExecuteAction(e: Extension, action: Option<string>, signal: Signal): (r: Execution)
    ensures r.Threw? <==> action.None?
    ensures r.Threw? ==> r.error == ArgumentNull
    ensures r.Returned? <==> action.Some? && Resolvable(e, action.value)
    ensures r.Returned? ==> r.response == TryGetValue(e, action.value).value(signal)
    ensures r.Diverges? <==> action.Some? && !Resolvable(e, action.value)
  {
    match action
    case None => Threw(ArgumentNull)
    case Some(a) =>
      match TryGetValue(e, a)
      case Some(h) => Returned(h(signal))
      case None => Diverges
  }

  /** A resolvable action answers with exactly what its handler returns for
      the given signal. */
  lemma ExecuteActionInvokesRegisteredHandler(e: Extension, a: string, signal: Signal)
    requires Resolvable(e, a)
    ensures ExecuteAction(e, Some(a), signal) == Returned(TryGetValue(e, a).value(signal))
  {
  }

  /** The two versions of the retry loop: as written, and with the counter
      advanced as its bound `i < 3` evidently intends. */
  datatype LoopVersion = AsWritten | CounterAdvanced

  /** State of the do-while: the counter `i` and the handler found so far. */
  datatype LoopState = LoopState(i: int, found: Option<Handler>)

  /** One pass of the loop body: look the action up; advance `i` only in the
      corrected version. */
  function LoopBody(version: LoopVersion, e: Extension, action: string, st: LoopState): LoopState
  {
    var found := TryGetValue(e, action);
    match version
    case AsWritten => LoopState(st.i, found)
    case CounterAdvanced => LoopState(st.i + 1, found)
  }

  /** `while (func == null && i < 3)` */
  predicate LoopGuard(st: LoopState)
  {
    st.found.None? && st.i < 3
  }

  /** `do { body } while (guard)` run for at most `fuel` passes: the state
      after the loop exits, or None while it is still running. */
  function RunLookup(version: LoopVersion, e: Extension, action: string, st: LoopState, fuel: nat): Option<LoopState>
    decreases fuel
  {
    if fuel == 0 then None
    else
      var next := LoopBody(version, e, action, st);
      if LoopGuard(next) then RunLookup(version, e, action, next, fuel - 1) else Some(next)
  }

  /** As written, an unresolvable action keeps the loop running however
      many passes are allowed. */
  lemma {:induction false} AsWrittenNeverExits(e: Extension, action: string, st: LoopState, fuel: nat)
    requires !Resolvable(e, action)
    requires st.i < 3
    ensures RunLookup(AsWritten, e, action, st, fuel).None?
    decreases fuel
  {
    if fuel > 0 {
      AsWrittenNeverExits(e, action, LoopBody(AsWritten, e, action, st), fuel - 1);
    }
  }

  /** As written, the loop exits (after one pass) exactly when the action is
      resolvable, so `ExecuteAction` diverges exactly on unresolvable names. */
  lemma ExecuteActionMatchesLoop(e: Extension, action: string, signal: Signal)
    ensures ExecuteAction(e, Some(action), signal).Diverges?
      <==> forall fuel: nat :: RunLookup(AsWritten, e, action, LoopState(0, None), fuel).None?
    ensures Resolvable(e, action) ==>
      RunLookup(AsWritten, e, action, LoopState(0, None), 1) == Some(LoopState(0, TryGetValue(e, action)))
  {
    if !Resolvable(e, action) {
      forall fuel: nat
        ensures RunLookup(AsWritten, e, action, LoopState(0, None), fuel).None?
      {
        AsWrittenNeverExits(e, action, LoopState(0, None), fuel);
      }
    } else {
      assert RunLookup(AsWritten, e, action, LoopState(0, None), 1).Some?;
    }
  }

  /** With the counter advanced, the loop always exits within three passes,
      holding whatever the lookup returns. */
  lemma CounterAdvancedExitsWithinThree(e: Extension, action: string)
    ensures RunLookup(CounterAdvanced, e, action, LoopState(0, None), 3)
      == Some(LoopState(if Resolvable(e, action) then 1 else 3, TryGetValue(e, action)))
  {
  }

  /** The evidently intended `ExecuteAction`: up to three lookups, then a
      warning and a null response. */
  function ExecuteActionBounded(e: Extension, action: Option<string>, signal: Signal): (r: Execution)
    ensures !r.Diverges?
    ensures action.Some? ==>
      r == Returned(if Resolvable(e, action.value) then TryGetValue(e, action.value).value(signal) else None)
  {
    match action
    case None => Threw(ArgumentNull)
    case Some(a) =>
      CounterAdvancedExitsWithinThree(e, a);
      var exit := RunLookup(CounterAdvanced, e, a, LoopState(0, None), 3).value;
      match exit.found
      case Some(h) => Returned(h(signal))
      case None => Returned(None)
  }

  /** `ExecuteAction` in the chosen version of its retry loop. */
  function Execute(version: LoopVersion, e: Extension, action: Option<string>, signal: Signal): Execution
  {
    match version
    case AsWritten => ExecuteAction(e, action, signal)
    case CounterAdvanced => ExecuteActionBounded(e, action, signal)
  }

  /** The two versions agree on every resolvable action; on every other
      non-null action the written one hangs where the bounded one answers
      null. */
  lemma BoundedAgreesWhereWrittenTerminates(e: Extension, action: Option<string>, signal: Signal)
    ensures !ExecuteAction(e, action, signal).Diverges? ==>
      ExecuteAction(e, action, signal) == ExecuteActionBounded(e, action, signal)
    ensures ExecuteAction(e, action, signal).Diverges? ==>
      ExecuteActionBounded(e, action, signal) == Returned(None)
  {
  }
}

=== FILE: in_memory_cache.dfy ===
/** InMemoryCache: a string-keyed cache whose entries expire a fixed number
    of seconds after they were written. The clock (`DateTime.UtcNow`) is a
    parameter `now`, counted in 100-nanosecond ticks. */
module InMemoryCache {
  import opened Wrappers
  import opened Runtime

  /** `TimeSpan.TicksPerSecond` */
  const TicksPerSecond := 10_000_000

  /** InMemoryCacheObject: the payload and the time it was written. */
  datatype CacheObject<V> = CacheObject(timestamp: int, payload: V)

  /** The cache: its entries and the lifetime, in seconds, fixed at
      construction. A lifetime of -1 or less is never enforced. */
  datatype Cache<V> = Cache(entries: map<string, CacheObject<V>>, expiryInSeconds: Int32)

  function NewCache<V>(expiryInSeconds: Int32): Cache<V>
  {
    Cache(map[], expiryInSeconds)
  }

  /** An entry is stale when the lifetime is enforced (`> -1`) and more than
      that many seconds have passed since it was written. */
  function Expired<V>(expiryInSeconds: int, o: CacheObject<V>, now: int): (stale: bool)
    ensures expiryInSeconds <= -1 ==> !stale
    ensures expiryInSeconds > -1 ==> (stale <==> now - o.timestamp > expiryInSeconds * TicksPerSecond)
    ensures stale ==> now > o.timestamp
  {
    expiryInSeconds > -1 && now - o.timestamp > expiryInSeconds * TicksPerSecond
  }

  /** Two entry maps that agree on every key other than `key`. */
  ghost predicate SameElsewhere<V>(m1: map<string, CacheObject<V>>, m2: map<string, CacheObject<V>>, key: string)
  {
    forall k :: k != key ==> (k in m1 <==> k in m2) && (k in m1 ==> m1[k] == m2[k])
  }

  /** The cache after a read, and what the read returned (null as None). */
  datatype Lookup<V> = Lookup(cache: Cache<V>, value: Option<V>)

  /** `Get<T>(key)`: null for an absent key; a stale entry is removed and
      null returned; otherwise the payload. */
  function Get<V>(c: Cache<V>, key: string, now: int): (r: Lookup<V>)
    ensures r.value.Some? <==> key in c.entries && !Expired(c.expiryInSeconds, c.entries[key], now)
    ensures r.value.Some? ==> r.value.value == c.entries[key].payload
    ensures r.cache.expiryInSeconds == c.expiryInSeconds
    ensures key in r.cache.entries <==> r.value.Some?
    ensures SameElsewhere(c.entries, r.cache.entries, key)
  {
    if key !in c.entries then Lookup(c, None)
    else if Expired(c.expiryInSeconds, c.entries[key], now) then Lookup(c.(entries := c.entries - {key}), None)
    else Lookup(c, Some(c.entries[key].payload))
  }

  /** `Set<T>(key, value)`: the entry is replaced, stamped with the time of
      writing; no other entry changes. */
  function Set<V>(c: Cache<V>, key: string, value: V, now: int): (r: Cache<V>)
    ensures key in r.entries && r.entries[key] == CacheObject(now, value)
    ensures r.expiryInSeconds == c.expiryInSeconds
    ensures SameElsewhere(c.entries, r.entries, key)
  {
    c.(entries := c.entries[key := CacheObject(now, value)])
  }

  /** Written at `t`, a value reads back at `now` while its lifetime has not
      run out, or always when the lifetime is not enforced. */
  lemma SetThenGet<V>(c: Cache<V>, key: string, value: V, t: int, now: int)
    requires c.expiryInSeconds <= -1 || now - t <= c.expiryInSeconds * TicksPerSecond
    ensures var r := Get(Set(c, key, value, t), key, now);
      r.value == Some(value) && r.cache == Set(c, key, value, t)
  {
  }

  /** Once its lifetime has run out, a value reads as null and is evicted. */
  lemma SetThenGetAfterExpiry<V>(c: Cache<V>, key: string, value: V, t: int, now: int)
    requires c.expiryInSeconds > -1 && now - t > c.expiryInSeconds * TicksPerSecond
    ensures var r := Get(Set(c, key, value, t), key, now);
      r.value == None && key !in r.cache.entries
  {
  }

  /** A later write under the same key replaces the earlier value. */
  lemma LastWriteWins<V>(c: Cache<V>, key: string, v1: V, v2: V, t1: int, t2: int)
    ensures Set(Set(c, key, v1, t1), key, v2, t2) == Set(c, key, v2, t2)
  {
  }

  /** Staleness is monotone in time: an entry that reads as null stays null
      at every later instant. */
  lemma NullStaysNull<V>(c: Cache<V>, key: string, now: int, later: int)
    requires later >= now
    requires Get(c, key, now).value.None?
    ensures Get(Get(c, key, now).cache, key, later).value.None?
    ensures Get(c, key, later).value.None?
  {
  }

  /** Reading again at the same instant returns the same answer and changes
      nothing further. */
  lemma GetIsStable<V>(c: Cache<V>, key: string, now: int)
    ensures var r := Get(c, key, now);
      Get(r.cache, key, now) == Lookup(r.cache, r.value)
  {
  }

  /** With the lifetime not enforced, a read never evicts. */
  lemma UnenforcedNeverEvicts<V>(c: Cache<V>, key: string, now: int)
    requires c.expiryInSeconds <= -1
    ensures Get(c, key, now).cache == c
    ensures Get(c, key, now).value == if key in c.entries then Some(c.entries[key].payload) else None
  {
  }

  /** A zero lifetime serves a value read within the tick it was written
      and hides it from the next tick on, so a prompt read after a write
      hits or misses depending on whether the clock has advanced. */
  lemma ZeroLifetimeDependsOnClock<V>(key: string, value: V, t: int)
    ensures Get(Set(NewCache<V>(0), key, value, t), key, t).value == Some(value)
    ensures Get(Set(NewCache<V>(0), key, value, t), key, t + 1).value == None
  {
  }

  // ---------------------------------------------------------------------
  // Search
  // ---------------------------------------------------------------------

  /** The keys whose payload satisfies the predicate, stale or not. */
  function MatchingKeys<V>(c: Cache<V>, pred: V -> bool): set<string>
  {
    set k | k in c.entries && pred(c.entries[k].payload)
  }

  /** The payloads of the live entries among `keys`, in that order. */
  function LiveValues<V>(c: Cache<V>, keys: seq<string>, now: int): seq<V>
    decreases |keys|
  {
    if |keys| == 0 then []
    else
      var k := keys[|keys| - 1];
      LiveValues(c, keys[..|keys| - 1], now)
        + (if k in c.entries && !Expired(c.expiryInSeconds, c.entries[k], now) then [c.entries[k].payload] else [])
  }

  /** The entries left once the stale ones among `keys` are evicted. */
  function Evict<V>(c: Cache<V>, keys: set<string>, now: int): map<string, CacheObject<V>>
  {
    map k | k in c.entries && !(k in keys && Expired(c.expiryInSeconds, c.entries[k], now)) :: c.entries[k]
  }

  /** `Search<T>(predicate)`: null when no entry, stale or live, matches.
      Otherwise each matching key is read with `Get`, in the dictionary's
      order, so stale matches are evicted and skipped: the array holds the
      live matches and may be empty. `order` is that visiting order. */
  method Search<V>(c: Cache<V>, pred: V -> bool, now: int) returns (r: Cache<V>, found: Option<seq<V>>, ghost order: seq<string>)
    ensures found.None? <==> MatchingKeys(c, pred) == {}
    ensures found.None? ==> r == c
    ensures r.expiryInSeconds == c.expiryInSeconds
    ensures r.entries == Evict(c, MatchingKeys(c, pred), now)
    ensures found.Some? ==>
      && |order| == |MatchingKeys(c, pred)|
      && (forall i :: 0 <= i < |order| ==> order[i] in MatchingKeys(c, pred))
      && (forall i, j :: 0 <= i < j < |order| ==> order[i] != order[j])
      && found.value == LiveValues(c, order, now)
  {
    var keys := MatchingKeys(c, pred);
    if keys == {} {
      assert Evict(c, keys, now) == c.entries;
      return c, None, [];
    }
    var remaining := keys;
    r := c;
    var values := [];
    order := [];
    while remaining != {}
      invariant remaining <= keys
      invariant forall i :: 0 <= i < |order| ==> order[i] in keys && order[i] !in remaining
      invariant forall i, j :: 0 <= i < j < |order| ==> order[i] != order[j]
      invariant |order| + |remaining| == |keys|
      invariant r.expiryInSeconds == c.expiryInSeconds
      invariant r.entries == Evict(c, keys - remaining, now)
      invariant values == LiveValues(c, order, now)
      decreases remaining
    {
      var k :| k in remaining;
      assert k in r.entries && r.entries[k] == c.entries[k];
      var got := Get(r, k, now);
      assert got.cache.entries == Evict(c, keys - (remaining - {k}), now);
      r := got.cache;
      if got.value.Some? {
        values := values + [got.value.value];
      }
      assert (order + [k])[..|order|] == order;
      order := order + [k];
      remaining := remaining - {k};
    }
    assert keys - remaining == keys;
    found := Some(values);
  }

  /** The live values are empty exactly when every key listed is absent or
      stale, so a search whose matches are all stale answers an empty array,
      not null. */
  lemma {:induction false} NoLiveValues<V>(c: Cache<V>, keys: seq<string>, now: int)
    ensures LiveValues(c, keys, now) == [] <==>
      forall i :: 0 <= i < |keys| ==> keys[i] !in c.entries || Expired(c.expiryInSeconds, c.entries[keys[i]], now)
    decreases |keys|
  {
    if |keys| > 0 {
      var init := keys[..|keys| - 1];
      NoLiveValues(c, init, now);
      assert forall i :: 0 <= i < |init| ==> init[i] == keys[i];
    }
  }

  /** The test fixtures: a value written to a ten-minute cache reads back,
      and an empty cache answers null. */
  lemma CacheFixtures(t: int)
    ensures Get(Set(NewCache<string>(600), "mykey", "myvalue", t), "mykey", t).value == Some("myvalue")
    ensures Get(NewCache<string>(600), "mykey", t).value == None
  {
  }
}

=== FILE: keyed_store.dfy ===
/** The backing store shared by ParameterList and EventedQueueParameters: a
    concurrent dictionary written only through TryAdd, so the first value
    written under a key is the one that stays. */
module KeyedStore {
  import opened Wrappers

  /** `ConcurrentDictionary.TryAdd(key, value)`: adds the pair when the key
      is absent, and does nothing when it is present. */
  function TryAdd<V>(m: map<string, V>, key: string, value: V): (r: map<string, V>)
    ensures r.Keys == m.Keys + {key}
    ensures key in m ==> r[key] == m[key]
    ensures key !in m ==> r[key] == value
    ensures forall k :: k in m ==> r[k] == m[k]
  {
    if key in m then m else m[key := value]
  }

  /** The indexer's setter: `TryAdd` three times over. Only the first pass
      can change anything; the other two find the key present. */
  method SetIndexer<V>(m: map<string, V>, key: string, value: V) returns (r: map<string, V>)
    ensures r == TryAdd(m, key, value)
    ensures r.Keys == m.Keys + {key}
    ensures r[key] == if key in m then m[key] else value
    ensures forall k :: k in m ==> r[k] == m[k]
  {
    r := m;
    var i := 0;
    while i < 3
      invariant 0 <= i <= 3
      invariant i == 0 ==> r == m
      invariant i > 0 ==> r == TryAdd(m, key, value)
    {
      r := TryAdd(r, key, value);
      i := i + 1;
    }
  }

  /** Writing twice under a key is writing once. */
  lemma TryAddIdempotent<V>(m: map<string, V>, key: string, v1: V, v2: V)
    ensures TryAdd(TryAdd(m, key, v1), key, v2) == TryAdd(m, key, v1)
  {
  }

  /** A sequence of writes through the setter, in order. */
  function ApplyWrites<V>(m: map<string, V>, writes: seq<(string, V)>): map<string, V>
    decreases |writes|
  {
    if |writes| == 0 then m else ApplyWrites(TryAdd(m, writes[0].0, writes[0].1), writes[1..])
  }

  /** The value of the first write to `key`, if any; an independent
      reference for what a sequence of writes leaves behind. */
  function FirstWrite<V>(writes: seq<(string, V)>, key: string): (r: Option<V>)
    ensures r.None? <==> forall i :: 0 <= i < |writes| ==> writes[i].0 != key
    ensures r.Some? ==> exists i :: 0 <= i < |writes| && writes[i] == (key, r.value)
  {
    if |writes| == 0 then None
    else if writes[0].0 == key then Some(writes[0].1)
    else
      var rest := FirstWrite(writes[1..], key);
      assert forall i :: 1 <= i < |writes| ==> writes[i] == writes[1..][i - 1];
      rest
  }

  /** First write wins: after a sequence of writes a key holds its earlier
      value if it had one, and otherwise the value of its first write. */
  lemma {:induction false} ApplyWritesFirstWins<V>(m: map<string, V>, writes: seq<(string, V)>, key: string)
    ensures key in ApplyWrites(m, writes) <==> key in m || FirstWrite(writes, key).Some?
    ensures key in ApplyWrites(m, writes) ==>
      ApplyWrites(m, writes)[key] == if key in m then m[key] else FirstWrite(writes, key).value
    decreases |writes|
  {
    if |writes| > 0 {
      ApplyWritesFirstWins(TryAdd(m, writes[0].0, writes[0].1), writes[1..], key);
    }
  }

  /** One more write after a sequence of writes. */
  lemma {:induction false} ApplyWritesSnoc<V>(m: map<string, V>, writes: seq<(string, V)>, w: (string, V))
    ensures ApplyWrites(m, writes + [w]) == TryAdd(ApplyWrites(m, writes), w.0, w.1)
    decreases |writes|
  {
    if |writes| > 0 {
      assert (writes + [w])[1..] == writes[1..] + [w];
      ApplyWritesSnoc(TryAdd(m, writes[0].0, writes[0].1), writes[1..], w);
    }
  }

  /** Keys are never removed by writes. */
  lemma {:induction false} ApplyWritesKeepsKeys<V>(m: map<string, V>, writes: seq<(string, V)>)
    ensures m.Keys <= ApplyWrites(m, writes).Keys
    decreases |writes|
  {
    if |writes| > 0 {
      ApplyWritesKeepsKeys(TryAdd(m, writes[0].0, writes[0].1), writes[1..]);
    }
  }
}

=== FILE: legacy_signal.dfy ===
/** The Signal message type of the older Common library: the same routing
    rule as the newest revision, without a sender Guid. This is the signal
    the extensions and the router of that tree work on. */
module LegacySignal {
  import opened Wrappers
  import opened Runtime
  import opened Text
  import opened RouteSplit

  datatype Signal = Signal(
    extension: Option<string>,
    action: Option<string>,
    sender: Option<string>,
    recipient: Option<string>,
    route: Option<string>,
    payload: Option<seq<byte>>)

  /** `new Signal()`: every field null. */
  function NewSignal(): Signal
  {
    Signal(None, None, None, None, None, None)
  }

  /** The `Route` setter: null throws on `ToLowerInvariant`; otherwise the
      stored route is lower-cased and the routing fields are taken from the
      value as given. */
  function SetRoute(s: Signal, value: Option<string>): (r: Result<Signal, Exception>)
    ensures value.None? <==> r == Failure(NullReference)
    ensures value.Some? ==> r.Success?
    ensures r.Success? ==>
      && r.value.route == Some(ToLowerInvariant(value.value))
      && RouteApplied(value.value, Segments(s.extension, s.action), Segments(r.value.extension, r.value.action))
    ensures r.Success? ==>
      && r.value.sender == s.sender
      && r.value.recipient == s.recipient
      && r.value.payload == s.payload
  {
    match value
    case None => Failure(NullReference)
    case Some(v) =>
      var after := SplitRoute(v, Segments(s.extension, s.action));
      Success(s.(route := Some(ToLowerInvariant(v)), extension := after.first, action := after.second))
  }

  /** `IsValid`: sender, extension and action are all non-null and non-empty;
      route, recipient and payload play no part. */
  function IsValid(s: Signal): (valid: bool)
    ensures valid <==>
      && s.sender.Some? && |s.sender.value| > 0
      && s.extension.Some? && |s.extension.value| > 0
      && s.action.Some? && |s.action.value| > 0
  {
    !(IsNullOrEmpty(s.sender) || IsNullOrEmpty(s.extension) || IsNullOrEmpty(s.action))
  }

  /** For a signal with a sender, validity after `Route = v` is decided by
      the shape of `v` and, where `v` leaves them alone, by the old fields. */
  lemma ValidityAfterRoute(s: Signal, v: string)
    requires !IsNullOrEmpty(s.sender)
    ensures var r := SetRoute(s, Some(v)).value;
      if Separator !in v then IsValid(r) <==> IsValid(s)
      else
        var i := IndexOf(v, Separator);
        IsValid(r) <==>
          && 0 < i
          && (if Occurrences(v, Separator) == 1 then i < |v| - 1 else !IsNullOrEmpty(s.action))
  {
  }

  /** Sender, recipient and payload are set independently of the route: a
      route assignment and a sender assignment commute. */
  lemma SenderIndependentOfRoute(s: Signal, v: string, sender: Option<string>)
    ensures SetRoute(s.(sender := sender), Some(v)).value == SetRoute(s, Some(v)).value.(sender := sender)
  {
  }
}

=== FILE: module_signal.dfy ===
/** The oldest Signal of the server project: routing fields `Module` and
    `Action`, the route stored verbatim, and a null route tolerated. */
module ModuleSignal {
  import opened Wrappers
  import opened Runtime
  import opened Text
  import opened RouteSplit

  datatype Signal = Signal(
    moduleName: Option<string>,
    action: Option<string>,
    sender: Option<string>,
    recipient: Option<string>,
    route: Option<string>,
    payload: Option<seq<byte>>)

  function NewSignal(): Signal
  {
    Signal(None, None, None, None, None, None)
  }

  /** The `Route` setter of this revision never throws: the value is stored
      as given (null included) and only a non-null value with a '/' changes
      `Module` and `Action`. */
  function SetRoute(s: Signal, value: Option<string>): (r: Signal)
    ensures r.route == value
    ensures value.None? ==> r.moduleName == s.moduleName && r.action == s.action
    ensures value.Some? ==>
      RouteApplied(value.value, Segments(s.moduleName, s.action), Segments(r.moduleName, r.action))
    ensures r.sender == s.sender && r.recipient == s.recipient && r.payload == s.payload
  {
    match value
    case None => s.(route := None)
    case Some(v) =>
      var after := SplitRoute(v, Segments(s.moduleName, s.action));
      s.(route := value, moduleName := after.first, action := after.second)
  }

  /** With exactly one '/', the route alone determines `Module` and `Action`,
      whatever the signal held before. */
  lemma OneSeparatorDeterminesFields(s: Signal, t: Signal, v: string)
    requires Separator in v && Occurrences(v, Separator) == 1
    ensures SetRoute(s, Some(v)).moduleName == SetRoute(t, Some(v)).moduleName
    ensures SetRoute(s, Some(v)).action == SetRoute(t, Some(v)).action
  {
  }

  /** With two or more '/', the action a signal had before survives. */
  lemma ManySeparatorsKeepAction(s: Signal, v: string)
    requires Separator in v && Occurrences(v, Separator) >= 2
    ensures SetRoute(s, Some(v)).action == s.action
    ensures SetRoute(s, Some(v)).moduleName == Some(v[..IndexOf(v, Separator)])
  {
  }
}

=== FILE: parameter_list.dfy ===
/** ParameterList: a named bag of configuration values. Reading an absent
    name gives null; writing goes through the first-write-wins setter. */
module ParameterList {
  import opened Wrappers
  import KeyedStore

  datatype ParameterList<V> = ParameterList(store: map<string, V>)

  function Empty<V>(): ParameterList<V>
  {
    ParameterList(map[])
  }

  /** The indexer's getter: the stored value, or null for an absent name. */
  function Get<V>(p: ParameterList<V>, index: string): (r: Option<V>)
    ensures r.Some? <==> index in p.store
    ensures r.Some? ==> r.value == p.store[index]
  {
    if index in p.store then Some(p.store[index]) else None
  }

  /** The indexer's setter: a name already present keeps its value. */
  method Set<V>(p: ParameterList<V>, index: string, value: V) returns (r: ParameterList<V>)
    ensures r.store == KeyedStore.TryAdd(p.store, index, value)
    ensures Get(r, index) == Some(if index in p.store then p.store[index] else value)
    ensures forall k :: k != index ==> Get(r, k) == Get(p, k)
  {
    var s := KeyedStore.SetIndexer(p.store, index, value);
    r := ParameterList(s);
  }

  /** `Add(key, value)`: the indexer's setter under another name. */
  method Add<V>(p: ParameterList<V>, key: string, value: V) returns (r: ParameterList<V>)
    ensures Get(r, key) == Some(if key in p.store then p.store[key] else value)
    ensures forall k :: k != key ==> Get(r, k) == Get(p, k)
  {
    r := Set(p, key, value);
  }

  /** An enumeration of a store: every pair exactly once, in some order. */
  ghost predicate EnumeratesOnce<V>(pairs: seq<(string, V)>, m: map<string, V>)
  {
    && (forall i, j :: 0 <= i < j < |pairs| ==> pairs[i].0 != pairs[j].0)
    && (forall i :: 0 <= i < |pairs| ==> pairs[i].0 in m && m[pairs[i].0] == pairs[i].1)
    && (forall k :: k in m ==> exists i :: 0 <= i < |pairs| && pairs[i].0 == k)
  }

  /** `GetEnumerator()`: the backing dictionary's pairs, in an order the
      dictionary does not specify. */
  method Enumerate<V>(p: ParameterList<V>) returns (pairs: seq<(string, V)>)
    ensures EnumeratesOnce(pairs, p.store)
    ensures |pairs| == |p.store|
  {
    pairs := [];
    var remaining := p.store.Keys;
    while remaining != {}
      invariant remaining <= p.store.Keys
      invariant forall i, j :: 0 <= i < j < |pairs| ==> pairs[i].0 != pairs[j].0
      invariant forall i :: 0 <= i < |pairs| ==>
        pairs[i].0 in p.store && pairs[i].0 !in remaining && p.store[pairs[i].0] == pairs[i].1
      invariant forall k :: k in p.store && k !in remaining ==> exists i :: 0 <= i < |pairs| && pairs[i].0 == k
      invariant |pairs| + |remaining| == |p.store|
      decreases remaining
    {
      var k :| k in remaining;
      var before := pairs;
      pairs := pairs + [(k, p.store[k])];
      forall k' | k' in p.store && k' !in remaining - {k}
        ensures exists i :: 0 <= i < |pairs| && pairs[i].0 == k'
      {
        if k' == k {
          assert pairs[|before|].0 == k';
        } else {
          var i :| 0 <= i < |before| && before[i].0 == k';
          assert pairs[i].0 == k';
        }
      }
      remaining := remaining - {k};
    }
  }

  /** `AddRange(list)`: every pair of `list` through the setter. Names
      already present keep their values; new names are added. */
  method AddRange<V>(p: ParameterList<V>, list: ParameterList<V>) returns (r: ParameterList<V>)
    ensures forall k :: k in r.store <==> k in p.store || k in list.store
    ensures forall k :: k in r.store ==>
      r.store[k] == if k in p.store then p.store[k] else list.store[k]
  {
    var pairs := Enumerate(list);
    r := p;
    var i := 0;
    while i < |pairs|
      invariant 0 <= i <= |pairs|
      invariant r.store == KeyedStore.ApplyWrites(p.store, pairs[..i])
    {
      KeyedStore.ApplyWritesSnoc(p.store, pairs[..i], pairs[i]);
      TakeOneMore(pairs, i);
      r := Set(r, pairs[i].0, pairs[i].1);
      i := i + 1;
    }
    assert pairs[..i] == pairs;
    WritesOfEnumeration(p.store, list.store, pairs);
  }

  lemma TakeOneMore<X>(s: seq<X>, i: int)
    requires 0 <= i < |s|
    ensures s[..i + 1] == s[..i] + [s[i]]
  {
  }

  /** Writing every pair of an enumeration of `m` over `base` adds the
      names of `m`, keeping the values `base` already held. */
  lemma WritesOfEnumeration<V>(base: map<string, V>, m: map<string, V>, pairs: seq<(string, V)>)
    requires EnumeratesOnce(pairs, m)
    ensures forall k :: k in KeyedStore.ApplyWrites(base, pairs) <==> k in base || k in m
    ensures forall k :: k in KeyedStore.ApplyWrites(base, pairs) ==>
      KeyedStore.ApplyWrites(base, pairs)[k] == if k in base then base[k] else m[k]
  {
    forall k
      ensures k in KeyedStore.ApplyWrites(base, pairs) <==> k in base || k in m
      ensures k in KeyedStore.ApplyWrites(base, pairs) ==>
        KeyedStore.ApplyWrites(base, pairs)[k] == if k in base then base[k] else m[k]
    {
      KeyedStore.ApplyWritesFirstWins(base, pairs, k);
      var first := KeyedStore.FirstWrite(pairs, k);
      if k in m {
        var j :| 0 <= j < |pairs| && pairs[j].0 == k;
      }
      if first.Some? {
        var j :| 0 <= j < |pairs| && pairs[j] == (k, first.value);
      }
    }
  }

  /** The constructor from a dictionary: the list holds exactly its pairs. */
  method FromDictionary<V>(d: map<string, V>) returns (r: ParameterList<V>)
    ensures r.store == d
  {
    r := AddRange(Empty(), ParameterList(d));
    assert r.store.Keys == d.Keys;
  }

  /** The copy constructor: the copy holds exactly the original's pairs. */
  method Copy<V>(existing: ParameterList<V>) returns (r: ParameterList<V>)
    ensures r == existing
  {
    r := AddRange(Empty(), existing);
    assert r.store.Keys == existing.store.Keys;
  }
}

=== FILE: queue_handler.dfy ===
/** EventedQueueHandler<T>: a registry of evented queues keyed by
    "exchangeId/queueId", a FIFO of keys with work pending, and a processing
    step that drains one pending key at a time. */
module EventedQueueHandler {
  import opened Wrappers
  import opened Runtime
  import opened Text
  import Q = InMemoryEventedQueue

  /** The configured `queue:service`. Any other enum value is unrecognised. */
  datatype QueueService = InMemoryService | RabbitMqService | UnrecognisedService(code: int)

  /** RabbitMQ.Client.ExchangeType.Direct, the default exchange type. */
  const DirectExchange := "direct"

  const Separator := '/'

  /** A registered queue. A broker queue is opaque here: what is enqueued is
      handed to the broker (`published`), and it cannot be dequeued. */
  datatype Backend<T> =
    | Local(queue: Q.EventedQueue<T>)
    | Broker(exchangeId: string, queueId: string, exchangeType: string,
             published: seq<T>, listeners: seq<Q.Listener>)

  /** `CanDequeue`: true for the in-memory queue, false for the broker one. */
  function CanDequeue<T>(b: Backend<T>): (r: bool)
    ensures r <==> b.Local?
    ensures b.Local? ==> r == Q.CanDequeue(b.queue)
  {
    b.Local?
  }

  function Push<T>(b: Backend<T>, item: T): Backend<T>
  {
    match b
    case Local(q) => Local(Q.Enqueue(q, item))
    case Broker(_, _, _, published, _) => b.(published := published + [item])
  }

  function AddListener<T>(b: Backend<T>, l: Q.Listener): Backend<T>
  {
    match b
    case Local(q) => Local(Q.Subscribe(q, l))
    case Broker(_, _, _, _, listeners) => b.(listeners := listeners + [l])
  }

  function RemoveListener<T>(b: Backend<T>, l: Q.Listener): Backend<T>
  {
    match b
    case Local(q) => Local(Q.Unsubscribe(q, l))
    case Broker(_, _, _, _, listeners) => b.(listeners := Q.RemoveLast(listeners, l))
  }

  datatype Handler<T> = Handler(
    service: QueueService,
    queues: map<string, Backend<T>>,
    pending: seq<string>,
    isRunning: bool)

  /** A new handler: empty registry, nothing pending, not running, and the
      service field at its default until `Start` reads the configuration. */
  function NewHandler<T>(initialService: QueueService): Handler<T>
  {
    Handler(initialService, map[], [], false)
  }

  /** `GetKey(exchangeId, queueId)`: `$"{exchangeId}/{queueId}"`. */
  function GetKey(exchangeId: string, queueId: string): (key: string)
    ensures Separator in key
  {
    exchangeId + [Separator] + queueId
  }

  /** Distinct (exchange, queue) pairs can share a key. */
  lemma KeysCollide()
    ensures ("a/b", "c") != ("a", "b/c") && GetKey("a/b", "c") == GetKey("a", "b/c")
  {
    assert "a/b" != "a" by { assert |"a/b"| != |"a"|; }
  }

  /** When no exchange id contains '/', the key identifies the pair. */
  lemma KeyIdentifiesPairWithoutSeparator(e1: string, q1: string, e2: string, q2: string)
    requires Separator !in e1 && Separator !in e2
    requires GetKey(e1, q1) == GetKey(e2, q2)
    ensures e1 == e2 && q1 == q2
  {
    var key := GetKey(e1, q1);
    if |e1| < |e2| {
      KeyPrefix(e2, q2, |e1|);
      assert false;
    } else if |e2| < |e1| {
      KeyPrefix(e1, q1, |e2|);
      assert false;
    }
    assert e1 == key[..|e1|] == e2;
    assert q1 == key[|e1| + 1..] == q2;
  }

  /** The key starts with the exchange id. */
  lemma KeyPrefix(exchangeId: string, queueId: string, i: int)
    ensures 0 <= i < |exchangeId| ==> GetKey(exchangeId, queueId)[i] == exchangeId[i]
  {
  }

  /** `IsRunning = true`, and the service is read from the configuration.
      The registry and the pending keys are untouched. */
  function Start<T>(h: Handler<T>, configured: QueueService): (r: Handler<T>)
    ensures r.isRunning && r.service == configured
    ensures r.queues == h.queues && r.pending == h.pending
  {
    h.(isRunning := true, service := configured)
  }

  /** `IsRunning = false`; nothing else changes, so pending keys and queued
      items survive a stop and are processed after the next Start. */
  function Stop<T>(h: Handler<T>): (r: Handler<T>)
    ensures !r.isRunning
    ensures r.service == h.service && r.queues == h.queues && r.pending == h.pending
  {
    h.(isRunning := false)
  }

  /** After Stop the next iteration ends the loop and changes nothing;
      Start records the configured service and lets pending work proceed. */
  lemma StartStopGateProcessing<T>(h: Handler<T>, configured: QueueService, d: T)
    ensures ProcessStep(Stop(h), d) == Step(Stop(h), Stopped)
    ensures Start(h, configured).service == configured
    ensures h.pending != [] ==> ProcessStep(Start(h, configured), d).next.pending == h.pending[1..]
  {
  }

  /** Two registries that agree on every key other than `key`. */
  ghost predicate UnchangedExcept<T>(m1: map<string, Backend<T>>, m2: map<string, Backend<T>>, key: string)
  {
    forall k :: k != key ==> (k in m1 <==> k in m2) && (k in m1 ==> m1[k] == m2[k])
  }

  /** The queue the `switch (_queueService)` in CreateQueue constructs. */
  function NewBackend<T>(service: QueueService, exchangeId: string, queueId: string, exchangeType: string): Result<Backend<T>, Exception>
  {
    match service
    case InMemoryService => Success(Local(Q.Empty()))
    case RabbitMqService => Success(Broker(exchangeId, queueId, exchangeType, [], []))
    case UnrecognisedService(_) => Failure(InvalidOperation)
  }

  /** `CreateQueue`: get-or-create. An existing key leaves everything as it
      is; otherwise a queue of the configured service is added under the key,
      or InvalidOperationException is thrown for an unrecognised service. */
  function CreateQueue<T>(h: Handler<T>, exchangeId: string, queueId: string, exchangeType: string): (r: Result<Handler<T>, Exception>)
    ensures GetKey(exchangeId, queueId) in h.queues ==> r == Success(h)
    ensures r.Failure? <==> GetKey(exchangeId, queueId) !in h.queues && h.service.UnrecognisedService?
    ensures r.Failure? ==> r.error == InvalidOperation
    ensures r.Success? ==>
      && r.value.service == h.service && r.value.pending == h.pending && r.value.isRunning == h.isRunning
      && GetKey(exchangeId, queueId) in r.value.queues
      && UnchangedExcept(h.queues, r.value.queues, GetKey(exchangeId, queueId))
    ensures r.Success? && GetKey(exchangeId, queueId) !in h.queues ==>
      NewBackend(h.service, exchangeId, queueId, exchangeType) == Success(r.value.queues[GetKey(exchangeId, queueId)])
  {
    var key := GetKey(exchangeId, queueId);
    if key in h.queues then Success(h)
    else
      match NewBackend(h.service, exchangeId, queueId, exchangeType)
      case Failure(err) => Failure(err)
      case Success(b) => Success(h.(queues := h.queues[key := b]))
  }

  /** Creating the same queue twice is creating it once. */
  lemma CreateQueueIdempotent<T>(h: Handler<T>, exchangeId: string, queueId: string, exchangeType: string)
    requires CreateQueue(h, exchangeId, queueId, exchangeType).Success?
    ensures var h1 := CreateQueue(h, exchangeId, queueId, exchangeType).value;
      CreateQueue(h1, exchangeId, queueId, exchangeType) == Success(h1)
  {
  }

  /** `RemoveQueue`: ArgumentException for an unknown key; otherwise that
      key, and only it, leaves the registry. Pending keys are kept. */
  function RemoveQueue<T>(h: Handler<T>, exchangeId: string, queueId: string): (r: Result<Handler<T>, Exception>)
    ensures r.Failure? <==> GetKey(exchangeId, queueId) !in h.queues
    ensures r.Failure? ==> r.error == Argument
    ensures r.Success? ==>
      && r.value.pending == h.pending && r.value.service == h.service && r.value.isRunning == h.isRunning
      && GetKey(exchangeId, queueId) !in r.value.queues
      && UnchangedExcept(h.queues, r.value.queues, GetKey(exchangeId, queueId))
  {
    var key := GetKey(exchangeId, queueId);
    if key !in h.queues then Failure(Argument)
    else Success(h.(queues := h.queues - {key}))
  }

  /** `AddEvent`: ArgumentException for an unknown key; otherwise the
      listener joins that queue's `Dequeued` invocation list. */
  function AddEvent<T>(h: Handler<T>, exchangeId: string, queueId: string, l: Q.Listener): (r: Result<Handler<T>, Exception>)
    ensures r.Failure? <==> GetKey(exchangeId, queueId) !in h.queues
    ensures r.Failure? ==> r.error == Argument
    ensures r.Success? ==>
      && r.value.pending == h.pending && r.value.service == h.service && r.value.isRunning == h.isRunning
      && GetKey(exchangeId, queueId) in r.value.queues
      && r.value.queues[GetKey(exchangeId, queueId)] == AddListener(h.queues[GetKey(exchangeId, queueId)], l)
      && UnchangedExcept(h.queues, r.value.queues, GetKey(exchangeId, queueId))
  {
    var key := GetKey(exchangeId, queueId);
    if key !in h.queues then Failure(Argument)
    else Success(h.(queues := h.queues[key := AddListener(h.queues[key], l)]))
  }

  /** `RemoveEvent`: ArgumentException for an unknown key; otherwise the
      listener's last subscription to that queue is dropped. */
  function RemoveEvent<T>(h: Handler<T>, exchangeId: string, queueId: string, l: Q.Listener): (r: Result<Handler<T>, Exception>)
    ensures r.Failure? <==> GetKey(exchangeId, queueId) !in h.queues
    ensures r.Failure? ==> r.error == Argument
    ensures r.Success? ==>
      && r.value.pending == h.pending && r.value.service == h.service && r.value.isRunning == h.isRunning
      && GetKey(exchangeId, queueId) in r.value.queues
      && r.value.queues[GetKey(exchangeId, queueId)] == RemoveListener(h.queues[GetKey(exchangeId, queueId)], l)
      && UnchangedExcept(h.queues, r.value.queues, GetKey(exchangeId, queueId))
  {
    var key := GetKey(exchangeId, queueId);
    if key !in h.queues then Failure(Argument)
    else Success(h.(queues := h.queues[key := RemoveListener(h.queues[key], l)]))
  }

  /** `Enqueue`: create the queue (direct exchange) if it is absent, append
      the item to it, and append its key to the pending FIFO. Fails only when
      the creation does. */
  function Enqueue<T>(h: Handler<T>, exchangeId: string, queueId: string, item: T): (r: Result<Handler<T>, Exception>)
    ensures r.Failure? <==> GetKey(exchangeId, queueId) !in h.queues && h.service.UnrecognisedService?
    ensures r.Failure? ==> r.error == InvalidOperation
    ensures r.Success? ==>
      var key := GetKey(exchangeId, queueId);
      && r.value.pending == h.pending + [key]
      && r.value.service == h.service && r.value.isRunning == h.isRunning
      && key in r.value.queues
      && (key in h.queues ==> r.value.queues[key] == Push(h.queues[key], item))
      && (key !in h.queues ==>
            r.value.queues[key] == Push(NewBackend(h.service, exchangeId, queueId, DirectExchange).value, item))
      && UnchangedExcept(h.queues, r.value.queues, key)
  {
    var key := GetKey(exchangeId, queueId);
    match CreateQueue(h, exchangeId, queueId, DirectExchange)
    case Failure(err) => Failure(err)
    case Success(h1) =>
      Success(h1.(queues := h1.queues[key := Push(h1.queues[key], item)], pending := h1.pending + [key]))
  }

  // ---------------------------------------------------------------------
  // One iteration of the processing loop
  // ---------------------------------------------------------------------

  /** What one iteration of `Process` does. */
  datatype StepEvent<T> =
    | Stopped                                     // IsRunning is false: the loop ends
    | Slept                                       // nothing pending: sleep 20 ms
    | SkippedEmptyKey                             // the popped key is empty
    | Passed(key: string)                          // the queue cannot be dequeued
    | Drained(key: string, fired: Q.Notification<T>) // one item dequeued, event raised
    | Crashed(error: Exception)                   // the popped key has no queue

  datatype Step<T> = Step(next: Handler<T>, event: StepEvent<T>)

  /** One iteration of `Process`: pop the front pending key and, if its
      queue can be dequeued, dequeue one item from it. A key whose queue was
      removed makes the registry lookup throw KeyNotFoundException, which
      propagates out of `Process`. */
  function ProcessStep<T>(h: Handler<T>, defaultValue: T): (r: Step<T>)
    ensures !h.isRunning ==> r == Step(h, Stopped)
    ensures h.isRunning && h.pending == [] ==> r == Step(h, Slept)
    ensures h.isRunning && h.pending != [] ==>
      && r.next.pending == h.pending[1..]
      && r.next.service == h.service && r.next.isRunning
      && UnchangedExcept(h.queues, r.next.queues, h.pending[0])
    ensures r.event.SkippedEmptyKey? <==> h.isRunning && h.pending != [] && h.pending[0] == ""
    ensures h.isRunning && h.pending != [] && h.pending[0] != "" && h.pending[0] in h.queues ==>
      && (r.event.Drained? <==> h.queues[h.pending[0]].Local?)
      && (r.event.Passed? <==> h.queues[h.pending[0]].Broker?)
    ensures r.event.Crashed? <==>
      h.isRunning && h.pending != [] && h.pending[0] != "" && h.pending[0] !in h.queues
    ensures r.event.Crashed? ==> r.event.error == KeyNotFound
    ensures r.event.SkippedEmptyKey? || r.event.Crashed? ==> r.next.queues == h.queues
    ensures r.event.Drained? ==>
      var key := h.pending[0];
      && r.event.key == key && key in h.queues && h.queues[key].Local?
      && var q := h.queues[key].queue;
      && key in r.next.queues
      && r.next.queues[key] == Local(Q.Dequeue(q, defaultValue).queue)
      && r.event.fired == Q.Notification(if Q.Count(q) > 0 then q.items[0] else defaultValue, q.listeners)
    ensures r.event.Passed? ==>
      r.event.key == h.pending[0] && h.pending[0] in h.queues && !CanDequeue(h.queues[h.pending[0]])
      && r.next.queues == h.queues
  {
    if !h.isRunning then Step(h, Stopped)
    else if |h.pending| == 0 then Step(h, Slept)
    else
      var key := h.pending[0];
      var popped := h.(pending := h.pending[1..]);
      if key == "" then Step(popped, SkippedEmptyKey)
      else if key !in h.queues then Step(popped, Crashed(KeyNotFound))
      else
        match h.queues[key]
        case Local(q) =>
          var d := Q.Dequeue(q, defaultValue);
          Step(popped.(queues := h.queues[key := Local(d.queue)]), Drained(key, d.fired))
        case Broker(_, _, _, _, _) => Step(popped, Passed(key))
  }

  // ---------------------------------------------------------------------
  // Invariant: every key is well formed, and no queued item is stranded
  // ---------------------------------------------------------------------

  /** Every registered and every pending key came from GetKey. */
  ghost predicate KeysWellFormed<T>(h: Handler<T>)
  {
    && (forall k :: k in h.queues ==> Separator in k)
    && (forall k :: k in h.pending ==> Separator in k)
  }

  /** Each in-memory queue has at least as many pending entries as items, so
      the processing loop will reach every item. */
  ghost predicate NoStrandedItems<T>(h: Handler<T>)
  {
    forall k :: k in h.queues && h.queues[k].Local? ==> Q.Count(h.queues[k].queue) <= multiset(h.pending)[k]
  }

  ghost predicate Invariant<T>(h: Handler<T>)
  {
    KeysWellFormed(h) && NoStrandedItems(h)
  }

  /** Every operation a caller can make on the handler. */
  datatype Op<T> =
    | StartOp(configured: QueueService)
    | StopOp
    | CreateQueueOp(exchangeId: string, queueId: string, exchangeType: string)
    | RemoveQueueOp(exchangeId: string, queueId: string)
    | AddEventOp(exchangeId: string, queueId: string, l: Q.Listener)
    | RemoveEventOp(exchangeId: string, queueId: string, l: Q.Listener)
    | EnqueueOp(exchangeId: string, queueId: string, item: T)
    | ProcessOp(defaultValue: T)

  /** The handler after an operation; a thrown exception leaves it as it
      was, since every check precedes every write. */
  function Apply<T>(h: Handler<T>, op: Op<T>): Handler<T>
  {
    match op
    case StartOp(c) => Start(h, c)
    case StopOp => Stop(h)
    case CreateQueueOp(e, q, t) => CreateQueue(h, e, q, t).GetOr(h)
    case RemoveQueueOp(e, q) => RemoveQueue(h, e, q).GetOr(h)
    case AddEventOp(e, q, l) => AddEvent(h, e, q, l).GetOr(h)
    case RemoveEventOp(e, q, l) => RemoveEvent(h, e, q, l).GetOr(h)
    case EnqueueOp(e, q, x) => Enqueue(h, e, q, x).GetOr(h)
    case ProcessOp(d) => ProcessStep(h, d).next
  }

  lemma NewHandlerSatisfiesInvariant<T>(service: QueueService)
    ensures Invariant(NewHandler<T>(service))
  {
  }

  /** Every operation preserves the invariant. */
  lemma ApplyPreservesInvariant<T>(h: Handler<T>, op: Op<T>)
    requires Invariant(h)
    ensures Invariant(Apply(h, op))
  {
    match op
    case EnqueueOp(e, q, x) => EnqueuePreserves(h, e, q, x);
    case ProcessOp(d) => ProcessStepPreserves(h, d);
    case _ =>
  }

  /** Enqueue adds one pending entry for the one queue that gains an item. */
  lemma EnqueuePreserves<T>(h: Handler<T>, e: string, q: string, x: T)
    requires Invariant(h)
    ensures Invariant(Enqueue(h, e, q, x).GetOr(h))
  {
  }

  /** A step pops one pending entry and takes at most one item from that
      entry's queue. */
  lemma ProcessStepPreserves<T>(h: Handler<T>, d: T)
    requires Invariant(h)
    ensures Invariant(ProcessStep(h, d).next)
  {
    var r := ProcessStep(h, d);
    if h.isRunning && h.pending != [] {
      var key := h.pending[0];
      assert key in r.next.queues && r.next.queues[key].Local? ==>
        key in h.queues && h.queues[key].Local?
        && (Q.Count(r.next.queues[key].queue) == 0
            || Q.Count(r.next.queues[key].queue) < Q.Count(h.queues[key].queue));
      PopPreserves(h, r.next);
    }
  }

  /** Popping the front pending key keeps the invariant, provided no other
      queue changes and the popped key's queue, if in memory, loses an item
      or is empty. */
  lemma PopPreserves<T>(h: Handler<T>, next: Handler<T>)
    requires Invariant(h) && h.pending != []
    requires next.pending == h.pending[1..]
    requires UnchangedExcept(h.queues, next.queues, h.pending[0])
    requires var key := h.pending[0];
      key in next.queues && next.queues[key].Local? ==>
        key in h.queues && h.queues[key].Local?
        && (Q.Count(next.queues[key].queue) == 0 || Q.Count(next.queues[key].queue) < Q.Count(h.queues[key].queue))
    ensures Invariant(next)
  {
    var key := h.pending[0];
    assert h.pending == [key] + next.pending;
    forall k | k in next.queues && next.queues[k].Local?
      ensures Q.Count(next.queues[k].queue) <= multiset(next.pending)[k]
    {
      if k != key {
        assert next.queues[k] == h.queues[k];
      }
    }
    forall k | k in next.queues
      ensures Separator in k
    {
      if k != key {
        assert k in h.queues;
      } else {
        assert key in h.pending;
      }
    }
    forall k | k in next.pending
      ensures Separator in k
    {
      assert k in h.pending;
    }
  }

  /** Under the invariant the empty-key branch of the loop is never taken. */
  lemma NoEmptyPendingKey<T>(h: Handler<T>, d: T)
    requires Invariant(h)
    ensures !ProcessStep(h, d).event.SkippedEmptyKey?
  {
    if h.isRunning && h.pending != [] {
      assert h.pending[0] in h.pending;
    }
  }

  /** An item enqueued onto a fresh in-memory queue of an idle, running
      handler is handed to the queue's listeners by the next step. */
  lemma EnqueueThenProcess<T>(h: Handler<T>, e: string, q: string, x: T, d: T)
    requires h.isRunning && h.pending == [] && h.service == InMemoryService
    requires GetKey(e, q) !in h.queues
    ensures Enqueue(h, e, q, x).Success?
    ensures var s := ProcessStep(Enqueue(h, e, q, x).value, d);
      && s.event == Drained(GetKey(e, q), Q.Notification(x, []))
      && s.next.queues[GetKey(e, q)] == Local(Q.Empty())
      && s.next.pending == []
  {
  }

  /** On a running, idle in-memory handler, enqueueing an item and then
      removing its queue makes the next step throw: the pending key is at
      the front and its queue is gone. */
  lemma RemovedQueueCrashesProcessing<T>(h: Handler<T>, e: string, q: string, x: T, d: T)
    requires h.isRunning && h.pending == [] && h.service == InMemoryService
    ensures Enqueue(h, e, q, x).Success?
    ensures var h1 := Enqueue(h, e, q, x).value;
      RemoveQueue(h1, e, q).Success?
      && ProcessStep(RemoveQueue(h1, e, q).value, d).event == Crashed(KeyNotFound)
  {
  }
}

=== FILE: queue_parameters.dfy ===
/** EventedQueueParameters: the settings handed to a queue generator.
    Unlike ParameterList, reading an absent name throws. */
module EventedQueueParameters {
  import opened Wrappers
  import opened Runtime
  import KeyedStore

  datatype QueueParameters<V> = QueueParameters(store: map<string, V>)

  function Empty<V>(): QueueParameters<V>
  {
    QueueParameters(map[])
  }

  /** The indexer's getter: IndexOutOfRangeException for an absent name. */
  function Get<V>(p: QueueParameters<V>, index: string): (r: Result<V, Exception>)
    ensures r.Failure? <==> index !in p.store
    ensures r.Failure? ==> r.error == IndexOutOfRange
    ensures r.Success? ==> r.value == p.store[index]
  {
    if index in p.store then Success(p.store[index]) else Failure(IndexOutOfRange)
  }

  /** The indexer's setter: a name already present keeps its value, and no
      name is ever removed. */
  method Set<V>(p: QueueParameters<V>, index: string, value: V) returns (r: QueueParameters<V>)
    ensures r.store == KeyedStore.TryAdd(p.store, index, value)
    ensures Get(r, index) == Success(if index in p.store then p.store[index] else value)
    ensures forall k :: k in p.store ==> Get(r, k) == Get(p, k)
  {
    var s := KeyedStore.SetIndexer(p.store, index, value);
    r := QueueParameters(s);
  }

  /** Through a sequence of writes, every name reads back as the value it
      was first given, and a name never written still throws. */
  lemma ReadAfterWrites<V>(writes: seq<(string, V)>, key: string)
    ensures var p := QueueParameters(KeyedStore.ApplyWrites(map[], writes));
      match KeyedStore.FirstWrite(writes, key)
      case None => Get(p, key) == Failure(IndexOutOfRange)
      case Some(v) => Get(p, key) == Success(v)
  {
    KeyedStore.ApplyWritesFirstWins(map[], writes, key);
  }

  /** Two writes to the same name: the second is ignored. */
  lemma SecondWriteIgnored<V>(key: string, v1: V, v2: V)
    ensures Get(QueueParameters(KeyedStore.ApplyWrites(map[], [(key, v1), (key, v2)])), key) == Success(v1)
  {
    ReadAfterWrites([(key, v1), (key, v2)], key);
  }
}

=== FILE: route_split.dfy ===
/** The rule every revision of the Signal `Route` setter applies to its two
    routing fields: split the assigned string on '/', store piece 0 in the
    first field (extension or module), and store piece 1 in the second field
    (action) only when there are exactly two pieces. Without a '/' neither
    field changes. */
module RouteSplit {
  import opened Wrappers
  import opened Text

  const Separator := '/'

  /** The two routing fields a route feeds: extension (or module), action. */
  datatype Segments = Segments(first: Option<string>, second: Option<string>)

  /** The setters' promise, stated by position of the first '/' and number
      of '/', without reference to Split. */
  ghost predicate RouteApplied(value: string, before: Segments, after: Segments)
  {
    if Separator !in value then after == before
    else
      var i := IndexOf(value, Separator);
      && after.first == Some(value[..i])
      && after.second == (if Occurrences(value, Separator) == 1 then Some(value[i + 1..]) else before.second)
  }

  /** The fields after `values = value.Split('/'); first = values[0];
      if (values.Length == 2) second = values[1];`, guarded by Contains("/"). */
  function SplitRoute(value: string, before: Segments): (after: Segments)
    ensures RouteApplied(value, before, after)
  {
    if Separator !in value then before
    else
      var values := Split(value, Separator);
      SplitShape(value);
      Segments(Some(values[0]), if |values| == 2 then Some(values[1]) else before.second)
  }

  /** Shape of the pieces of a route that contains a separator. */
  lemma SplitShape(value: string)
    requires Separator in value
    ensures var values := Split(value, Separator); var i := IndexOf(value, Separator);
      && values[0] == value[..i]
      && (|values| == 2 <==> Occurrences(value, Separator) == 1)
      && (|values| == 2 ==> values[1] == value[i + 1..])
  {
    var i := IndexOf(value, Separator);
    SplitAtFirst(value, Separator);
    if Occurrences(value, Separator) == 1 {
      assert Separator !in value[i + 1..] by {
        assert Occurrences(value[i + 1..], Separator) == 0;
      }
      SplitWithoutSeparator(value[i + 1..], Separator);
    }
  }

  /** A route with exactly one '/' is recovered by joining the two fields it
      sets with '/'. */
  lemma OneSeparatorRoundTrip(value: string, before: Segments)
    requires Separator in value && Occurrences(value, Separator) == 1
    ensures var after := SplitRoute(value, before);
      after.first.Some? && after.second.Some?
      && after.first.value + [Separator] + after.second.value == value
  {
    var i := IndexOf(value, Separator);
    assert value == value[..i] + [Separator] + value[i + 1..];
  }
}

=== FILE: router.dfy ===
/** The local-mode SignalRouter: find the first loaded extension whose name
    equals the signal's extension and run the signal's action on it. */
module SignalRouter {
  import opened Wrappers
  import opened Runtime
  import opened Extensions
  import LegacySignal

  /** What a call of `Route` does. Its C# return type is void: a handler's
      response is dropped, so no outcome carries one. */
  datatype RouteOutcome =
    | Unrouted            // no extension matched; a warning is logged
    | Invoked(target: nat) // ExecuteAction on the target returned
    | Hangs(target: nat)   // the target's ExecuteAction never returns
    | Failed(error: Exception)

  /** `signal.Extension == x.Name`: ordinal string equality, null equal only
      to null. */
  predicate NameMatches(e: Extension, s: Signal)
  {
    s.extension == e.name
  }

  predicate IsFirstMatch(extensions: seq<Extension>, s: Signal, t: nat)
  {
    && t < |extensions|
    && NameMatches(extensions[t], s)
    && forall j :: 0 <= j < t ==> !NameMatches(extensions[j], s)
  }

  /** `FirstOrDefault(x => signal.Extension == x.Name)` as an index. */
  function FirstMatch(extensions: seq<Extension>, s: Signal): (r: Option<nat>)
    ensures r.None? <==> forall j :: 0 <= j < |extensions| ==> !NameMatches(extensions[j], s)
    ensures r.Some? ==> IsFirstMatch(extensions, s, r.value)
  {
    if |extensions| == 0 then None
    else if NameMatches(extensions[0], s) then Some(0)
    else
      match FirstMatch(extensions[1..], s)
      case None => None
      case Some(t) => Some(t + 1)
  }

  /** The outcome of `extension.ExecuteAction(signal.Action, signal)` on the
      target, with the response discarded. */
  function Dispatch(t: nat, x: Execution): RouteOutcome
  {
    match x
    case Returned(_) => Invoked(t)
    case Diverges => Hangs(t)
    case Threw(err) => Failed(err)
  }

  /** `Route(signal)`, with `ExecuteAction` in the given version of its
      retry loop (as written, or with the counter advanced). No validity
      check comes first: a signal that fails `IsValid` is routed like any
      other. A null signal throws on reading its extension. */
  function Route(version: LoopVersion, extensions: seq<Extension>, signal: Option<Signal>): (outcome: RouteOutcome)
    ensures signal.None? ==> outcome == Failed(NullReference)
    ensures signal.Some? ==>
      (outcome.Unrouted? <==> forall j :: 0 <= j < |extensions| ==> !NameMatches(extensions[j], signal.value))
    ensures outcome.Invoked? || outcome.Hangs? ==>
      signal.Some? && IsFirstMatch(extensions, signal.value, outcome.target)
    ensures outcome.Invoked? ==> signal.value.action.Some?
    ensures outcome.Invoked? && version == AsWritten ==>
      Resolvable(extensions[outcome.target], signal.value.action.value)
    ensures outcome.Hangs? <==>
      && version == AsWritten && signal.Some?
      && (exists t: nat :: IsFirstMatch(extensions, signal.value, t)
            && signal.value.action.Some? && !Resolvable(extensions[t], signal.value.action.value))
    ensures signal.Some? && outcome.Failed? ==> outcome.error == ArgumentNull && signal.value.action.None?
  {
    match signal
    case None => Failed(NullReference)
    case Some(s) =>
      match FirstMatch(extensions, s)
      case None => Unrouted
      case Some(t) =>
        FirstMatchUnique(extensions, s, t);
        Dispatch(t, Execute(version, extensions[t], s.action, s))
  }

  /** At most one index is the first match. */
  lemma FirstMatchUnique(extensions: seq<Extension>, s: Signal, t: nat)
    requires IsFirstMatch(extensions, s, t)
    ensures forall u :: IsFirstMatch(extensions, s, u) ==> u == t
  {
  }

  /** With the retry loop corrected, a signal whose extension is found and
      whose action is named is always dispatched and never hangs. */
  lemma CorrectedRouteNeverHangs(extensions: seq<Extension>, s: Signal)
    requires s.action.Some?
    requires exists j :: 0 <= j < |extensions| && NameMatches(extensions[j], s)
    ensures Route(CounterAdvanced, extensions, Some(s)).Invoked?
  {
  }

  /** An invalid signal (here: no sender) whose extension and action resolve
      is still dispatched. */
  lemma RouteSkipsValidation(h: Handler)
    ensures var s := LegacySignal.NewSignal().(extension := Some("chat"), action := Some("send"));
      var e := RegisterAction(NewExtension(Some("chat")), Some("send"), Some(h)).value;
      !LegacySignal.IsValid(s) && Route(CounterAdvanced, [e], Some(s)) == Invoked(0)
  {
  }

  /** Extension names are compared case-sensitively: "Chat" is not routed to
      an extension named "chat". */
  lemma RouteIsCaseSensitive(s: Signal)
    requires s.extension == Some("Chat")
    ensures Route(CounterAdvanced, [NewExtension(Some("chat"))], Some(s)) == Unrouted
  {
    assert "Chat" != "chat" by { assert "Chat"[0] != "chat"[0]; }
  }
}

=== FILE: signal.dfy ===
/** The Signal message type of the newest Common library: routing fields
    derived from `Route`, sender and recipient identities, a sender connection
    Guid and an opaque payload. */
module Signal {
  import opened Wrappers
  import opened Runtime
  import opened Text
  import opened RouteSplit

  /** System.Guid as its 128-bit value; `default(Guid)` is 0. */
  type Guid = x: int | 0 <= x < 0x1_0000_0000_0000_0000_0000_0000_0000_0000

  datatype Signal = Signal(
    extension: Option<string>,
    action: Option<string>,
    sender: Option<string>,
    senderIdentifier: Guid,
    recipient: Option<string>,
    route: Option<string>,
    payload: Option<seq<byte>>)

  /** `new Signal()`: every reference field null, the Guid empty. */
  function NewSignal(): Signal
  {
    Signal(None, None, None, 0, None, None, None)
  }

  /** The `Route` setter. A null value throws on `ToLowerInvariant` before
      any field is written. Otherwise the stored route is lower-cased while
      the extension and action come from the value as given. */
  function SetRoute(s: Signal, value: Option<string>): (r: Result<Signal, Exception>)
    ensures value.None? <==> r == Failure(NullReference)
    ensures value.Some? ==> r.Success?
    ensures r.Success? ==>
      && r.value.route == Some(ToLowerInvariant(value.value))
      && RouteApplied(value.value, Segments(s.extension, s.action), Segments(r.value.extension, r.value.action))
    ensures r.Success? ==>
      && r.value.sender == s.sender
      && r.value.senderIdentifier == s.senderIdentifier
      && r.value.recipient == s.recipient
      && r.value.payload == s.payload
  {
    match value
    case None => Failure(NullReference)
    case Some(v) =>
      var after := SplitRoute(v, Segments(s.extension, s.action));
      Success(s.(route := Some(ToLowerInvariant(v)), extension := after.first, action := after.second))
  }

  /** `IsValid`: sender, extension and action are all non-null and non-empty;
      route, recipient and payload play no part. */
  function IsValid(s: Signal): (valid: bool)
    ensures valid <==>
      && s.sender.Some? && |s.sender.value| > 0
      && s.extension.Some? && |s.extension.value| > 0
      && s.action.Some? && |s.action.value| > 0
  {
    !(IsNullOrEmpty(s.sender) || IsNullOrEmpty(s.extension) || IsNullOrEmpty(s.action))
  }

  /** For a signal with a sender, validity after `Route = v` is decided by
      the shape of `v` and, where `v` leaves them alone, by the old fields. */
  lemma ValidityAfterRoute(s: Signal, v: string)
    requires !IsNullOrEmpty(s.sender)
    ensures var r := SetRoute(s, Some(v)).value;
      if Separator !in v then IsValid(r) <==> IsValid(s)
      else
        var i := IndexOf(v, Separator);
        IsValid(r) <==>
          && 0 < i
          && (if Occurrences(v, Separator) == 1 then i < |v| - 1 else !IsNullOrEmpty(s.action))
  {
  }

  /** A fresh signal with a sender becomes valid through its route exactly
      when the route is `extension/action` with both parts non-empty; so
      "/x", "x/" and "a/b/c" all leave it invalid. */
  lemma FreshSignalValidity(sender: string, v: string)
    requires sender != ""
    ensures var r := SetRoute(NewSignal().(sender := Some(sender)), Some(v)).value;
      IsValid(r) <==>
        (Separator in v && Occurrences(v, Separator) == 1
         && 0 < IndexOf(v, Separator) < |v| - 1)
  {
    ValidityAfterRoute(NewSignal().(sender := Some(sender)), v);
  }

  /** The stored route is lower-cased but the extension and action keep the
      case of the assigned value. */
  lemma RouteCaseExample()
    ensures var r := SetRoute(NewSignal(), Some("Chat/Go")).value;
      && r.route == Some("chat/go")
      && r.extension == Some("Chat")
      && r.action == Some("Go")
  {
    var v := "Chat/Go";
    assert v[..4] == "Chat" && v[5..] == "Go";
    assert v[4] == Separator;
    assert Separator !in v[..4];
    assert IndexOf(v, Separator) == 4;
    assert Separator !in v[5..];
    SplitAtFirst(v, Separator);
    LowerChatGo();
  }

  lemma LowerChatGo()
    ensures ToLowerInvariant("Chat/Go") == "chat/go"
  {
    var low := ToLowerInvariant("Chat/Go");
    assert low[0] == 'c' && low[1] == 'h' && low[2] == 'a' && low[3] == 't';
    assert low[4] == '/' && low[5] == 'g' && low[6] == 'o';
    assert low == [low[0], low[1], low[2], low[3], low[4], low[5], low[6]];
  }
}

=== FILE: signal_extensions.dfy ===
/** Helpers over a Signal: the diagnostic text rendering and the null guard
    of payload resolution. */
module SignalExtensions {
  import opened Wrappers
  import opened Runtime
  import opened Text
  import opened Signal

  const NewLine := "\r\n"

  /** What `{0}` in a composite format renders for a string argument: a
      null argument renders as nothing. */
  function Render(s: Option<string>): string
  {
    if s.None? then "" else s.value
  }

  /** The value shown after "Recipient: ": `Recipient ?? "null"`. */
  function RecipientText(s: Signal): string
  {
    if s.recipient.None? then "null" else s.recipient.value
  }

  /** The value shown after "Payload Length: ": `Payload?.Length`, which is
      a null int, rendered as nothing, when there is no payload. */
  function PayloadLengthText(s: Signal): string
  {
    if s.payload.None? then "" else NatToDecimal(|s.payload.value|)
  }

  /** StringBuilder appends, one CR LF terminated line per entry. */
  function AppendLines(lines: seq<string>): string
  {
    if |lines| == 0 then "" else lines[0] + NewLine + AppendLines(lines[1..])
  }

  /** One more line appended after the others ends the text. */
  lemma {:induction false} AppendLinesSnoc(lines: seq<string>, line: string)
    ensures AppendLines(lines + [line]) == AppendLines(lines) + line + NewLine
    decreases |lines|
  {
    if |lines| == 0 {
      assert [line][1..] == [];
    } else {
      assert (lines + [line])[1..] == lines[1..] + [line];
      AppendLinesSnoc(lines[1..], line);
    }
  }

  /** The five labelled lines `Format` writes, without their terminators. */
  function FormatFields(signal: Signal, signalType: Option<string>): seq<string>
  {
    [ "Type: " + Render(signalType),
      "Route: " + Render(signal.route),
      "Sender: " + Render(signal.sender),
      "Recipient: " + RecipientText(signal),
      "Payload Length: " + PayloadLengthText(signal) ]
  }

  /** `Format(signal, signalType)`: the rendering opens with the Type line
      and closes with the Payload Length line, each CR LF terminated. */
  function Format(signal: Signal, signalType: Option<string>): (r: string)
    ensures var first := "Type: " + Render(signalType) + NewLine;
      |first| <= |r| && r[..|first|] == first
    ensures var last := "Payload Length: " + PayloadLengthText(signal) + NewLine;
      |last| <= |r| && r[|r| - |last|..] == last
  {
    var f := FormatFields(signal, signalType);
    AppendLinesEnds(f);
    AppendLines(f)
  }

  /** Appended lines open with the first line and close with the last, each
      followed by its terminator. */
  lemma AppendLinesEnds(lines: seq<string>)
    requires |lines| > 0
    ensures var first := lines[0] + NewLine; var text := AppendLines(lines);
      |first| <= |text| && text[..|first|] == first
    ensures var last := lines[|lines| - 1] + NewLine; var text := AppendLines(lines);
      |last| <= |text| && text[|text| - |last|..] == last
  {
    var n := |lines| - 1;
    assert lines == lines[..n] + [lines[n]];
    AppendLinesSnoc(lines[..n], lines[n]);
  }

  /** The first line, its carriage return and its line feed, then the rest. */
  lemma AppendLinesCons(lines: seq<string>)
    requires |lines| > 0
    ensures AppendLines(lines) == (lines[0] + "\r") + ['\n'] + AppendLines(lines[1..])
  {
  }

  /** Each line with its carriage return, as a split at line feeds leaves it. */
  function CarriageTerminated(lines: seq<string>): (r: seq<string>)
    ensures |r| == |lines|
    ensures forall i :: 0 <= i < |lines| ==> r[i] == lines[i] + "\r"
  {
    if |lines| == 0 then [] else [lines[0] + "\r"] + CarriageTerminated(lines[1..])
  }

  /** Split at line feeds, the appended text gives back the carriage
      terminated lines followed by the empty remainder. */
  lemma {:induction false} SplitAppendedLinesExactly(lines: seq<string>)
    requires forall i :: 0 <= i < |lines| ==> '\n' !in lines[i]
    ensures Split(AppendLines(lines), '\n') == CarriageTerminated(lines) + [""]
  {
    if |lines| == 0 {
      assert AppendLines(lines) == [];
    } else {
      var first, tail := lines[0] + "\r", lines[1..];
      assert '\n' !in first by { assert '\n' !in lines[0]; }
      AppendLinesCons(lines);
      SplitAfterPrefix(first, '\n', AppendLines(tail));
      forall i | 0 <= i < |tail|
        ensures '\n' !in tail[i]
      {
        assert tail[i] == lines[i + 1];
      }
      SplitAppendedLinesExactly(tail);
      assert CarriageTerminated(lines) == [first] + CarriageTerminated(tail);
      ConsSnoc(first, CarriageTerminated(tail), "");
    }
  }

  lemma ConsSnoc<T>(x: T, middle: seq<T>, y: T)
    ensures [x] + (middle + [y]) == [x] + middle + [y]
  {
  }

  /** Split at line feeds, appended lines come back one per piece with their
      carriage return, followed by the empty remainder after the last break. */
  lemma SplitAppendedLines(lines: seq<string>)
    requires forall i :: 0 <= i < |lines| ==> '\n' !in lines[i]
    ensures var pieces := Split(AppendLines(lines), '\n');
      && |pieces| == |lines| + 1
      && pieces[|lines|] == ""
      && forall i :: 0 <= i < |lines| ==> pieces[i] == lines[i] + "\r"
  {
    SplitAppendedLinesExactly(lines);
  }

  /** No rendered field contains a line feed. */
  predicate SingleLineFields(signal: Signal, signalType: Option<string>)
  {
    && '\n' !in Render(signalType)
    && '\n' !in Render(signal.route)
    && '\n' !in Render(signal.sender)
    && '\n' !in RecipientText(signal)
  }

  /** When no field contains a line feed, the rendering split at line feeds
      is exactly five CR-terminated lines
      in the order Type, Route, Sender, Recipient, Payload Length, followed by
      the empty remainder after the last line break. */
  lemma FormatLines(signal: Signal, signalType: Option<string>)
    requires SingleLineFields(signal, signalType)
    ensures var lines := Split(Format(signal, signalType), '\n');
      && |lines| == 6
      && lines[0] == "Type: " + Render(signalType) + "\r"
      && lines[1] == "Route: " + Render(signal.route) + "\r"
      && lines[2] == "Sender: " + Render(signal.sender) + "\r"
      && lines[3] == "Recipient: " + RecipientText(signal) + "\r"
      && lines[4] == "Payload Length: " + PayloadLengthText(signal) + "\r"
      && lines[5] == ""
  {
    FieldsHaveNoLineFeed(signal, signalType);
    SplitFiveLines(FormatFields(signal, signalType));
  }

  /** Five single-line entries, appended, split back into themselves. */
  lemma SplitFiveLines(fields: seq<string>)
    requires |fields| == 5
    requires forall i :: 0 <= i < 5 ==> '\n' !in fields[i]
    ensures var lines := Split(AppendLines(fields), '\n');
      && |lines| == 6 && lines[5] == ""
      && lines[0] == fields[0] + "\r" && lines[1] == fields[1] + "\r" && lines[2] == fields[2] + "\r"
      && lines[3] == fields[3] + "\r" && lines[4] == fields[4] + "\r"
  {
    SplitAppendedLinesExactly(fields);
  }

  /** The labels hold no line feed, so single-line values make single-line
      fields. */
  lemma FieldsHaveNoLineFeed(signal: Signal, signalType: Option<string>)
    requires SingleLineFields(signal, signalType)
    ensures forall i :: 0 <= i < |FormatFields(signal, signalType)| ==> '\n' !in FormatFields(signal, signalType)[i]
  {
    DigitsHaveNoLineFeed(PayloadLengthText(signal));
  }

  lemma DigitsHaveNoLineFeed(digits: string)
    requires AllDigits(digits)
    ensures '\n' !in digits
  {
    forall k | 0 <= k < |digits|
      ensures digits[k] != '\n'
    {
      assert IsDigit(digits[k]);
    }
  }

  /** The Payload Length line reads back as the payload's length, and is
      empty exactly when there is no payload. */
  lemma PayloadLengthReadsBack(signal: Signal)
    ensures PayloadLengthText(signal) == "" <==> signal.payload.None?
    ensures signal.payload.Some? ==>
      AllDigits(PayloadLengthText(signal))
      && ParseDecimal(PayloadLengthText(signal)) == |signal.payload.value|
  {
    if signal.payload.Some? {
      DecimalRoundTrip(|signal.payload.value|);
    }
  }

  /** `ResolvePayload<T>`: a null signal yields `default(T)` without touching
      any payload; otherwise the payload bytes are decoded (UTF-8 text, then
      JSON). A null payload makes the decoding throw ArgumentNullException;
      bytes that do not deserialize make it throw whatever the decoder
      throws. The decoder is a parameter because its behaviour is outside
      the model; its exceptions propagate unchanged. */
  function ResolvePayload<T>(signal: Option<Signal>, decode: seq<byte> -> Result<T, Exception>, defaultValue: T): (r: Result<T, Exception>)
    ensures signal.None? ==> r == Success(defaultValue)
    ensures signal.Some? && signal.value.payload.None? ==> r == Failure(ArgumentNull)
    ensures signal.Some? && signal.value.payload.Some? ==> r == decode(signal.value.payload.value)
    ensures r.Failure? <==>
      signal.Some? && (signal.value.payload.None? || decode(signal.value.payload.value).Failure?)
  {
    match signal
    case None => Success(defaultValue)
    case Some(s) =>
      if s.payload.None? then Failure(ArgumentNull) else decode(s.payload.value)
  }

  /** The null guard never consults the decoder. */
  lemma NullSignalIgnoresDecoder<T>(d1: seq<byte> -> Result<T, Exception>, d2: seq<byte> -> Result<T, Exception>, defaultValue: T)
    ensures ResolvePayload(None, d1, defaultValue) == ResolvePayload(None, d2, defaultValue)
  {
  }

  /** With a decoder that never throws, resolution fails exactly on a
      present signal with a null payload, and only with ArgumentNull. */
  lemma TotalDecoderFailsOnlyOnNullPayload<T>(decode: seq<byte> -> Result<T, Exception>, signal: Option<Signal>, defaultValue: T)
    requires forall b :: decode(b).Success?
    ensures var r := ResolvePayload(signal, decode, defaultValue);
      (r.Failure? <==> signal.Some? && signal.value.payload.None?) && (r.Failure? ==> r.error == ArgumentNull)
  {
  }
}

=== FILE: text.dfy ===
/** String operations of the .NET base library that the model needs:
    lower-casing, splitting on one character, and decimal rendering. */
module Text {

  /** Number of occurrences of `c` in `s`. */
  function Occurrences(s: string, c: char): nat
  {
    multiset(s)[c]
  }

  /** Index of the first occurrence of `c` in `s` (string.IndexOf). */
  function IndexOf(s: string, c: char): (i: nat)
    requires c in s
    ensures i < |s| && s[i] == c
    ensures c !in s[..i]
  {
    if s[0] == c then 0
    else
      assert s == [s[0]] + s[1..];
      var j := IndexOf(s[1..], c);
      assert s[..j + 1] == [s[0]] + s[1..][..j];
      j + 1
  }

  // ---------------------------------------------------------------------
  // ToLowerInvariant, restricted to the ASCII letters
  // ---------------------------------------------------------------------

  predicate IsUpper(c: char)
  {
    'A' <= c <= 'Z'
  }

  function LowerChar(c: char): char
  {
    if IsUpper(c) then (c as int + 32) as char else c
  }

  /** string.ToLowerInvariant on the ASCII range: upper-case letters become
      lower-case, every other character is kept. */
  function ToLowerInvariant(s: string): (r: string)
    ensures |r| == |s|
    ensures forall i :: 0 <= i < |s| ==> r[i] == LowerChar(s[i])
    ensures forall i :: 0 <= i < |r| ==> !IsUpper(r[i])
  {
    if |s| == 0 then ""
    else [LowerChar(s[0])] + ToLowerInvariant(s[1..])
  }

  /** Lower-casing twice is lower-casing once. */
  lemma ToLowerIdempotent(s: string)
    ensures ToLowerInvariant(ToLowerInvariant(s)) == ToLowerInvariant(s)
  {
    var r := ToLowerInvariant(s);
    var rr := ToLowerInvariant(r);
    assert forall i :: 0 <= i < |r| ==> rr[i] == r[i];
  }

  // ---------------------------------------------------------------------
  // string.Split(char) and its inverse string.Join
  // ---------------------------------------------------------------------

  /** string.Split(sep): the maximal separator-free pieces, including empty
      ones at either end and between adjacent separators. */
  function Split(s: string, sep: char): (parts: seq<string>)
    ensures |parts| == Occurrences(s, sep) + 1
    ensures forall i :: 0 <= i < |parts| ==> sep !in parts[i]
  {
    if |s| == 0 then [""]
    else
      assert s == [s[0]] + s[1..];
      var rest := Split(s[1..], sep);
      if s[0] == sep then [""] + rest
      else [[s[0]] + rest[0]] + rest[1..]
  }

  /** string.Join(sep, parts) */
  function Join(parts: seq<string>, sep: char): string
    requires |parts| >= 1
  {
    if |parts| == 1 then parts[0]
    else parts[0] + [sep] + Join(parts[1..], sep)
  }

  /** A string without the separator splits into itself alone. */
  lemma {:induction false} SplitWithoutSeparator(s: string, sep: char)
    requires sep !in s
    ensures Split(s, sep) == [s]
  {
    if |s| > 0 {
      assert s == [s[0]] + s[1..];
      SplitWithoutSeparator(s[1..], sep);
    }
  }

  /** Split on a string with a known first character. */
  lemma SplitCons(c: char, t: string, sep: char)
    ensures c == sep ==> Split([c] + t, sep) == [""] + Split(t, sep)
    ensures c != sep ==> Split([c] + t, sep) == [[c] + Split(t, sep)[0]] + Split(t, sep)[1..]
  {
    assert ([c] + t)[1..] == t;
  }

  /** Splitting `a + sep + b` where `a` holds no separator yields `a`
      followed by the pieces of `b`. */
  lemma {:induction false} SplitAfterPrefix(a: string, sep: char, b: string)
    requires sep !in a
    ensures Split(a + [sep] + b, sep) == [a] + Split(b, sep)
  {
    if |a| == 0 {
      assert a + [sep] + b == [sep] + b;
      SplitCons(sep, b, sep);
    } else {
      var tail := a[1..] + [sep] + b;
      assert a + [sep] + b == [a[0]] + tail;
      SplitAfterPrefix(a[1..], sep, b);
      SplitCons(a[0], tail, sep);
      assert [a[0]] + a[1..] == a;
    }
  }

  /** The first piece of a split ends at the first separator, and the rest
      of the pieces are the pieces of what follows it. */
  lemma SplitAtFirst(s: string, sep: char)
    requires sep in s
    ensures var i := IndexOf(s, sep);
      Split(s, sep) == [s[..i]] + Split(s[i + 1..], sep)
      && Occurrences(s, sep) == Occurrences(s[i + 1..], sep) + 1
  {
    var i := IndexOf(s, sep);
    assert s == s[..i] + [sep] + s[i + 1..];
    SplitAfterPrefix(s[..i], sep, s[i + 1..]);
  }

  /** Joining the pieces of a split gives back the original string. */
  lemma {:induction false} JoinSplit(s: string, sep: char)
    ensures Join(Split(s, sep), sep) == s
    decreases |s|
  {
    if sep !in s {
      SplitWithoutSeparator(s, sep);
    } else {
      var i := IndexOf(s, sep);
      SplitAtFirst(s, sep);
      var head, tail := s[..i], s[i + 1..];
      assert s == head + [sep] + tail;
      var rest := Split(tail, sep);
      var parts := [head] + rest;
      assert Split(s, sep) == parts;
      JoinSplit(tail, sep);
      assert parts[1..] == rest;
      assert Join(parts, sep) == head + [sep] + Join(rest, sep);
    }
  }

  /** Splitting the join of separator-free pieces gives back the pieces. */
  lemma {:induction false} SplitJoin(parts: seq<string>, sep: char)
    requires |parts| >= 1
    requires forall i :: 0 <= i < |parts| ==> sep !in parts[i]
    ensures Split(Join(parts, sep), sep) == parts
  {
    if |parts| == 1 {
      SplitWithoutSeparator(parts[0], sep);
    } else {
      SplitJoin(parts[1..], sep);
      SplitAfterPrefix(parts[0], sep, Join(parts[1..], sep));
      assert parts == [parts[0]] + parts[1..];
    }
  }

  // ---------------------------------------------------------------------
  // Decimal rendering of a non-negative int (int.ToString())
  // ---------------------------------------------------------------------

  predicate IsDigit(c: char)
  {
    '0' <= c <= '9'
  }

  function DigitChar(d: nat): char
    requires d < 10
  {
    (d + '0' as int) as char
  }

  function DigitValue(c: char): nat
    requires IsDigit(c)
  {
    c as int - '0' as int
  }

  predicate AllDigits(s: string)
  {
    forall i :: 0 <= i < |s| ==> IsDigit(s[i])
  }

  /** Decimal text of `n`: non-empty, digits only, no leading zero. */
  function NatToDecimal(n: nat): (r: string)
    ensures |r| >= 1 && AllDigits(r)
    ensures r[0] == '0' ==> n == 0
    decreases n
  {
    if n < 10 then [DigitChar(n)]
    else NatToDecimal(n / 10) + [DigitChar(n % 10)]
  }

  /** Reads a string of digits as a number. */
  function ParseDecimal(s: string): nat
    requires AllDigits(s)
  {
    if |s| == 0 then 0
    else 10 * ParseDecimal(s[..|s| - 1]) + DigitValue(s[|s| - 1])
  }

  /** Reading back the decimal text of `n` yields `n`. */
  lemma {:induction false} DecimalRoundTrip(n: nat)
    ensures ParseDecimal(NatToDecimal(n)) == n
    decreases n
  {
    var r := NatToDecimal(n);
    if n >= 10 {
      DecimalRoundTrip(n / 10);
      assert r[..|r| - 1] == NatToDecimal(n / 10);
    } else {
      assert r[..|r| - 1] == "";
    }
  }
}

=== FILE: wrappers.dfy ===
/** Option stands in for a C# reference that may be null; Result for a call
    that either returns or throws. */
module Wrappers {

  datatype Option<+T> = None | Some(value: T)

  datatype Result<+R, +E> = Success(value: R) | Failure(error: E) {

    /** The value, or `default` for a failure. */
    function GetOr(default: R): R
    {
      if Success? then value else default
    }
  }
}

/** The few .NET runtime notions the modelled code relies on. */
module Runtime {
  import opened Wrappers

  /** The exception types the modelled code throws or lets escape. */
  datatype Exception =
    | NullReference     // System.NullReferenceException: a member read through null
    | ArgumentNull      // System.ArgumentNullException: a null dictionary key or null decoder input
    | Argument          // System.ArgumentException
    | InvalidOperation  // System.InvalidOperationException
    | KeyNotFound       // System.Collections.Generic.KeyNotFoundException
    | IndexOutOfRange   // System.IndexOutOfRangeException
    | Json              // Newtonsoft.Json.JsonException: text that does not deserialize

  newtype byte = x: int | 0 <= x < 256

  /** System.Int32 */
  type Int32 = x: int | -0x8000_0000 <= x < 0x8000_0000

  /** string.IsNullOrEmpty */
  predicate IsNullOrEmpty(s: Option<string>)
  {
    s.None? || s.value == ""
  }
}
